=== FILE: README.md ===
# Ai-Code-Helper: the command logic of the desktop assistant, in Dafny

The assistant (`Main.py`) is a Tk window that takes typed or spoken
requests. A request either goes to an AI chat model, or runs a shell
command, or is spoken back. This project models the deterministic logic
behind those paths and proves properties about it:

- **Risk** – `is_risky_command`, the denylist consulted before any shell
  command runs: dangerous substrings, `sudo`, and destructive verbs at the
  start of the command.
- **Runner** – how `run_command` turns a finished process into the text
  shown in the log. The process is an abstract outcome: exited with code
  and streams, timed out, or failed to start. A parser `Runner.Read` is
  the inverse of the formatter, and the round trip is proved.
- **Dispatch** – the voice router in `on_speech_recognized`, the
  confirmation gate shared by the voice path and `run_command_gui`,
  `ask_ai_dialog`, `run_ai` with what happens once the answer arrives, and
  the text `ask_ai` hands back. Each handler is a function from its input,
  and from the user's answers to the questions it asks, to the sequence of
  visible effects it issues (`Effects.Effect`).
- **Listen** – `background_listen_loop` as a function of its startup and
  of one abstract outcome per pass, plus the start/stop toggle and quit,
  which set and clear the listening flag.
- **Settings** – `load_settings`: the defaults merged with what the
  settings file holds.
- **Text** – the pieces of Python's `str` the logic relies on: `lower`,
  `strip`, `split(maxsplit=…)`, `startswith`, `in`, slicing and `str(int)`.
  `split` follows CPython's algorithm: with `maxsplit` reached, the rest is
  kept whole, trailing whitespace included.

Behaviours of the code worth knowing, each proved as a lemma:

- A voice request "ask what time is it" sends the prompt "time is it".
  One might expect the prompt to be the text after the ask keyword, "what
  time is it"; `split(maxsplit=2)` drops the first two words whatever they
  are (`Dispatch.AskWhatTimeIsIt`, `Dispatch.AskDropsTwoWords`).
- An AI failure is not marked apart from an answer. The code returns the
  failure as bracketed text, and an answer with the same text gives the
  same string (`Dispatch.FailureReadsLikeAnswer`).
- A timeout is not reported distinctly from every normal completion. A
  command whose standard output is exactly the timeout text gives the
  same string (`Runner.TimeoutReportCanBePrinted`).
- The command is cut from the transcript at index 4, whatever whitespace
  preceded "run", so "  run ls" runs "n ls"
  (`Dispatch.LeadingSpaceShiftsCommand`).
- The risk check is a substring denylist. It flags "cat information"
  (contains "format") and "cat sudoku" (contains "sudo"), and passes
  "ls; rm a" (`Risk.FormatInWordIsRisky`, `Risk.SudoInWordIsRisky`,
  `Risk.ChainedDeleteUnflagged`).

## Model

| member | source | states |
|---|---|---|
| Risk.IsRiskyCommand | Main.py:196-206 | The verdict of the loop with early returns is true exactly when one of the three rules holds: a dangerous token in the lower-cased command, "sudo" in it, or the stripped lower-cased command starting with a destructive verb. |
| Risk.RiskIgnoresCase | Main.py:197 | A command and its lower-cased form get the same verdict. |
| Risk.EmptyIsSafe | Main.py:196-206 | The empty command is not risky. |
| Risk.FormatPrefixSubsumed | Main.py:193-204 | The "format " verb rule never decides alone: such a command already contains the "format" token. |
| Risk.TokenMakesRisky | Main.py:198-200 | Any occurrence of any dangerous token, at any position, makes the command risky. |
| Risk.RecursiveDeleteIsRisky | Main.py:193-200 | "rm -rf /tmp/x" is risky. |
| Risk.SudoIsRisky | Main.py:201-202 | "sudo apt update" is risky, in upper case too. |
| Risk.DeleteVerbIsRisky | Main.py:203-205 | "del file.txt" is risky by its verb. |
| Risk.IndentedVerbIsRisky | Main.py:203-205 | " rmdir x" is risky: leading whitespace is stripped before the verb test. |
| Risk.SafeWhenCharsMissing | Main.py:196-206 | A lower-case command, unchanged by stripping, that misses a character of every dangerous token and of "sudo" and begins with no destructive verb is not risky. |
| Risk.ListingIsSafe | Main.py:196-206 | "ls -la" is not risky. |
| Risk.LacksTokens | Main.py:193-200 | A command missing some character of each dangerous token contains none of them. |
| Risk.KelvinSignIsRisky | Main.py:197-200 | "m\u212Afs /dev/sda" is flagged: the KELVIN SIGN lower-cases to "k", giving "mkfs". |
| Risk.FormatInWordIsRisky | Main.py:198-200 | "cat information" is flagged, because it contains "format". |
| Risk.SudoInWordIsRisky | Main.py:201-202 | "cat sudoku" is flagged, because it contains "sudo". |
| Risk.ChainedDeleteUnflagged | Main.py:196-206 | "rm a" is flagged, but "ls; rm a" is not: the verb rule only looks at the start. |
| Runner.RunCommand | Main.py:208-223 | The reported text is never empty, and non-interactive output with an empty stderr is shown exactly as printed. |
| Runner.ReadRunCommand | Main.py:208-223 | Reading the report back recovers the outcome: the timeout, the spawn error with its reason, the interactive return code, both streams when stderr is non-empty, the return code of a silent command, and stdout alone otherwise. This holds whenever the outcome is `Unambiguous`: stdout printed next to stderr holds no blank line followed by "STDERR:", and stdout printed alone does not look like a report. |
| Runner.ReadTimeout | Main.py:220-221 | The timeout report reads back as a timeout. |
| Runner.ReadSpawnError | Main.py:222-223 | A spawn failure report reads back with its reason. |
| Runner.ReadReturnCode | Main.py:209-212 | The interactive report reads back with its return code, negative codes included. |
| Runner.ReadCompletedSilently | Main.py:219 | The report of a command that printed nothing reads back with its return code. |
| Runner.ReadOutput | Main.py:219 | Output that does not look like a report reads back as itself. |
| Runner.ErrorReportsShareLead | Main.py:221-223 | Both error reports begin with "[Error" and differ in the next character. |
| Runner.ReadStreams | Main.py:217-218 | Both streams read back separately when stdout holds no blank line followed by "STDERR:". |
| Runner.FirstHeaderAfterStdout | Main.py:218 | When stdout holds no blank line followed by "STDERR:", the first stderr header in the report is the one right after stdout. |
| Runner.TimeoutReportDistinct | Main.py:210-221 | The timeout report differs from every interactive report and every spawn error. A non-interactive completion gives the same text exactly when stderr is empty and stdout is the timeout text. |
| Runner.ReturnCodeDistinctFromSpawnError | Main.py:211-223 | An interactive report never equals a spawn error report. |
| Runner.TimeoutReportCanBePrinted | Main.py:219-221 | A command printing the timeout text is reported like a timeout. |
| Runner.StreamsBlurWithoutCondition | Main.py:217-218 | When stdout contains the stderr header, two different stream pairs give the same report. |
| Dispatch.RouteTranscript | Main.py:360-366 | The route is AI exactly when the stripped lower-cased text starts with "ask". The prompt is then the whole text when it is one word, the second word when it has two, and otherwise the tail of the text that starts at the third word, so its words are the third word onwards. The route is a command exactly when the text instead starts with "run ", and the command is the transcript after its first four characters. Otherwise it is the echo route. |
| Dispatch.RouteAsk | Main.py:360-364 | A transcript whose stripped lower-cased form starts with "ask" goes to the AI with the prompt of Dispatch.AskPrompt. |
| Dispatch.RouteRunShell | Main.py:365-366 | Otherwise, a transcript whose stripped lower-cased form starts with "run " runs the transcript after its first four characters. |
| Dispatch.RouteEcho | Main.py:376-381 | A transcript that starts with neither is spoken back. |
| Dispatch.AskPrompt | Main.py:362-363 | For a text holding a non-whitespace character, the prompt is non-empty and no longer than the text. It is the whole text for one word, the second word for two, and otherwise the suffix of the text that starts at the third word, so its words are the third word onwards. |
| Dispatch.AskAiKeywordSubsumed | Main.py:361 | Every text that passes the "ask ai" test passes the "ask" test. |
| Dispatch.AskDropsTwoWords | Main.py:361-364 | "ask" (any case), a word and a question give the question alone as the prompt. |
| Dispatch.AskWhatTimeIsIt | Main.py:361-364 | "ask what time is it" gives the prompt "time is it". |
| Dispatch.AskSingleWord | Main.py:362-363 | A single word beginning with "ask" is its own prompt. |
| Dispatch.RunListing | Main.py:365-366 | "run ls" runs "ls". |
| Dispatch.HelloIsEchoed | Main.py:376-381 | "hello there" is spoken back. |
| Dispatch.KelvinSignAsks | Main.py:360-364 | "as\u212A me" is a question with the prompt "me", because the KELVIN SIGN lower-cases to "k". |
| Dispatch.KelvinSignWords | Main.py:362 | "as\u212A me" has exactly two words, the second being "me". |
| Dispatch.RouteRun | Main.py:360-366 | "run " in any case followed by a command runs that command exactly when it holds a non-whitespace character. Otherwise the text is echoed. |
| Dispatch.LeadingSpaceShiftsCommand | Main.py:360-366 | "  run ls" runs "n ls". |
| Dispatch.OnSpeechGuarded | Main.py:358-381 | On the voice path, every risky command started was confirmed first. A command is started exactly when the route is a command that is safe or confirmed. Every command started is the routed one, in non-interactive mode. |
| Dispatch.VoiceAbortStops | Main.py:367-370 | A refused risky voice command starts nothing, and the abort is the last effect. |
| Dispatch.EchoIsInert | Main.py:376-381 | The echo route starts nothing, queries nothing, asks nothing, does not depend on the user's answer, and speaks the transcript back. |
| Dispatch.AskReachesAi | Main.py:361-364 | The AI route queries the AI with the prompt and asks no confirmation. |
| Dispatch.SttErrorIsEchoed | Main.py:168-170 | The "[STT error: …]" text the loop hands on is spoken back, never run. |
| Dispatch.Gate | Main.py:367-370 | Only a risky command is asked about: a safe one gives exactly its own effects, a confirmed one the question and then its own effects, a refused one the question and the abort line. |
| Dispatch.GateConfirms | Main.py:472-475 | The gate passes the command's effects through exactly when the command is safe or confirmed. A risky command that gets through is preceded by the confirmation. Commands keep their text and mode. |
| Dispatch.PrependKeeps | Main.py:359 | Logging first changes neither the number of commands started, nor their text and mode, nor their confirmation. |
| Dispatch.RunAi | Main.py:389-391 | "[AI] Prompt: " and the prompt are logged first, then the AI is queried with the prompt, and nothing runs. |
| Dispatch.VoiceRun | Main.py:371-375 | The voice path's run step starts exactly one command, the routed one, non-interactively. |
| Dispatch.Handle | Main.py:360-381 | The AI route queries the AI and runs nothing. The echo route speaks the text back and runs nothing. The command route starts the routed command, non-interactively, exactly when it is safe or confirmed, and never a risky one unconfirmed. |
| Dispatch.OnSpeech | Main.py:358-359 | Every transcript is logged first, and then handled. |
| Dispatch.GuiRun | Main.py:476-481 | The dialog path's run step asks the interactive question first and starts exactly one command, in the mode answered. |
| Dispatch.RunCommandGui | Main.py:469-471 | A cancelled or empty entry does nothing at all. |
| Dispatch.GuiRunAskedBefore | Main.py:474-481 | When the gate lets the dialog command through, the interactive question comes before the command starts, in the mode answered. |
| Dispatch.RunCommandGuiGuarded | Main.py:468-481 | On the dialog path, every risky command started was confirmed first. The entered command is started exactly when it is non-empty and safe or confirmed. It is then started after the interactive question, and only in the mode answered. |
| Dispatch.AskAiDialog | Main.py:384-387 | An empty or cancelled prompt does nothing. Otherwise the AI is queried with it, and nothing runs. |
| Dispatch.AiResponseText | Main.py:109-114 | An answer is stripped of surrounding whitespace. A failure is "[AI request failed: " + reason + "]", from which the reason can be cut back out. |
| Dispatch.FailureReadsLikeAnswer | Main.py:109-114 | For every reason, an answer reading like the failure gives the same text as the failure. |
| Dispatch.AiAnswered | Main.py:392-395 | The answer is logged under its header before anything else. |
| Dispatch.AiShown | Main.py:394-407 | Logging, speaking and the save question write nothing and start nothing. |
| Dispatch.AiSaved | Main.py:407-410 | A file is written only when the user agreed and chose a path. |
| Dispatch.AiAutoWritten | Main.py:412-414 | A file is written only when the setting is non-empty. |
| Dispatch.AiAnsweredWrites | Main.py:392-414 | The number of files written is one per agreed save with a chosen path plus one for a set auto-write target, and nothing runs. |
| Dispatch.AiAnsweredContent | Main.py:397-414 | Every write holds the whole answer, to the chosen or the configured path, the chosen one first. The spoken text is the answer's first 300 characters. |
| Listen.SttError | Main.py:168-169 | The error text is "[STT error: ", the reason, then "]"; the reason can be cut back out of it. |
| Listen.Loop | Main.py:159-173 | The loop ends exactly when the flag is found cleared. It hands on at most one text, or logs at most one line, per pass. |
| Listen.ListenLoop | Main.py:147-173 | Without a microphone, or when calibration fails, it returns having called back nothing and logged one line. Otherwise it behaves as the loop. |
| Listen.Callback | Main.py:163-170 | A pass hands something on exactly when text was heard or the request failed. |
| Listen.LoopFollowsTicks | Main.py:159-173 | Until the flag is cleared, the callbacks are exactly those the passes ask for, in order, and the loop keeps going. |
| Listen.LoopStep | Main.py:159-173 | A pass that does not find the flag cleared adds its callback and its log line in front of what the remaining passes do. |
| Listen.LoopAppend | Main.py:159-173 | Passes run one after another: callbacks and log lines concatenate. |
| Listen.LoopStopsAtClear | Main.py:159 | Nothing after the cleared flag has any effect. |
| Listen.SilentPassesHandNothing | Main.py:166-173 | A pass that is not understood, or whose listening fails, hands nothing on and does not end the loop. |
| Listen.HeardInOrder | Main.py:163-165 | Heard transcripts are handed on unchanged and in order. |
| Listen.Toggle | Main.py:330-354 | Stopping clears both the state and the flag. Starting with a microphone sets both. Starting without one changes nothing. |
| Listen.Quit | Main.py:522-527 | A confirmed quit clears the flag, a refused one changes nothing, and the quit question is always asked. |
| Listen.QuitIdempotent | Main.py:522-527 | Quitting twice with the same answer is quitting once; a refused quit leaves a running loop running. |
| Listen.ToggleKeepsStep | Main.py:330-354 | The toggle keeps the state and the flag in step, and starts exactly one listener when it starts listening with a microphone, none otherwise. |
| Listen.ToggleTwice | Main.py:330-354 | With a microphone, toggling twice returns to the starting state. |
| Settings.Pair | Main.py:59 | An element is accepted as a pair exactly when it is a two-element list with a string key or a two-character string, and the key and value rebuild it. |
| Settings.Overrides | Main.py:58-63 | `update` accepts an object, with its fields as they are, the empty string, which sets nothing, or a list whose every element is a pair, setting exactly the pairs' keys; anything else is rejected. |
| Settings.Pairs | Main.py:59 | `update` with a list accepts it only when every element is a pair, and the keys set are exactly the pairs' keys. |
| Settings.PairsLastWins | Main.py:59 | Among pairs with the same key, the last one's value is kept. |
| Settings.Load | Main.py:50-63 | The keys are the default keys plus every key an accepted file sets. A missing file is written with the defaults, and nothing else is written. Keys the file sets take the file's value, and all other keys keep their defaults. |
| Settings.LoadSavedObject | Main.py:50-60 | A saved object holding every default key loads back unchanged. |
| Settings.SaveThenLoad | Main.py:50-71 | Saving the loaded settings and loading again gives the same settings. |
| Settings.ScalarFileGivesDefaults | Main.py:57-63 | A file holding a scalar gives the defaults, like an unreadable one. |
| Settings.PairListOverrides | Main.py:58-60 | A list of pairs overrides the defaults, the later pair winning. |
| Settings.BadPairDiscardsAll | Main.py:58-63 | One element that is not a pair makes the whole file fall back to the defaults. |
| Text.Lower | Main.py:197 | Lower-casing keeps the length and maps each character on its own, the KELVIN SIGN to "k" included. |
| Text.LowerIdempotent | Main.py:197 | Lower-casing twice is lower-casing once. |
| Text.LowerAppend | Main.py:197 | Lower-casing distributes over concatenation. |
| Text.LowerKeepsSpace | Main.py:204 | Lower-casing neither creates nor removes whitespace. |
| Text.IndexOf | Main.py:199 | The first occurrence of a substring is found, and none is reported exactly when there is none. |
| Text.ShiftOccurrence | Main.py:199 | An occurrence is either at the start or an occurrence in the rest. |
| Text.MissingCharNotContained | Main.py:199 | A string lacking one of a token's characters does not contain the token. |
| Text.Strip | Main.py:204 | The result is a slice with only whitespace around it and no whitespace at its ends. It is empty exactly when the input is all whitespace. |
| Text.StripUnchanged | Main.py:204 | A string with no whitespace at its ends is unchanged by stripping. |
| Text.StripKeepsFirst | Main.py:360 | A string not beginning with whitespace keeps its first character. |
| Text.StripKeepsPrefix | Main.py:204 | A prefix starting with a non-space survives stripping when something non-space follows it. |
| Text.SkipSpace | Main.py:360 | The index of the first non-whitespace character from a position on. |
| Text.WordEnd | Main.py:362 | The index of the first whitespace character from a position on. |
| Text.TrailingStart | Main.py:360 | The index after the last non-whitespace character before a bound. |
| Text.SplitFrom | Main.py:362 | Splitting from a position gives at most maxsplit+1 parts, each non-empty and starting with a non-space, all but the last single words. It gives no parts exactly when only whitespace is left. |
| Text.SplitFromStep | Main.py:362 | From a position, the split is empty when only whitespace is left. With no split left it is the rest from the next word on. Otherwise it is that word followed by the split after it. |
| Text.Split | Main.py:362 | At most maxsplit+1 parts, each non-empty and starting with a non-space, all but the last single words. No parts exactly when the text is all whitespace. |
| Text.SplitWords | Main.py:362 | Against the words of the text, read character by character: with at most maxsplit words, the parts are the words. Otherwise they are the first maxsplit words, then a suffix of the text whose words are the remaining ones. |
| Text.WordsFromBlank | Main.py:362 | A text has no words exactly when it is all whitespace. |
| Text.WordsSkipSpace | Main.py:362 | Leading whitespace adds no word. |
| Text.WordsFirstWord | Main.py:362 | A non-whitespace run ended by whitespace or the end is the first word. |
| Text.WordsOfSuffix | Main.py:362 | The words of a suffix of a text are the words of the text from where the suffix starts. |
| Text.SplitFromWords | Main.py:362 | Splitting from any position agrees with the words of the rest of the text, in the sense stated for Text.SplitWords. |
| Text.SplitFromWordsLast | Main.py:362 | The agreement holds for the last part: when only whitespace is left, or no split is. |
| Text.SplitFromWordsStep | Main.py:362 | The agreement holds when one word is split off and the rest is split once less. |
| Text.ConsMatchesWords | Main.py:362 | One more word in front of both the parts and the words keeps them in agreement, with one more split. |
| Text.SplitOneWord | Main.py:362 | A single word splits into itself. |
| Text.SplitTwoWordsAndRest | Main.py:362 | Two words and a rest split into the two words and the whole rest. |
| Text.Drop | Main.py:366 | `s[k:]` is what follows the first k characters, or empty when k exceeds the length. |
| Text.Take | Main.py:400 | `s[:k]` is the prefix of length min(k, len(s)). |
| Text.IntToString | Main.py:211 | `str(n)` is non-empty and starts with '-' exactly for negative n. |
| Text.IntToStringRoundTrip | Main.py:211 | Parsing `str(n)` gives n back. |
| Text.NatToStringRoundTrip | Main.py:219 | The digits of `str(n)` have value n. |

## Left out

- The Tk window, dialogs, buttons and the thread check in `log_print`.
  Dialog answers are parameters; the log pane is the `Log` effect.
- Threads and `root.after` marshalling. Work handed to a thread is modelled
  as the effect that starts it. The model does not cover running a stop
  and a start before the old loop checks the flag, which leaves two
  listeners running.
- The latency of stopping the loop. The flag is checked between passes,
  and a pass may wait up to 5 seconds plus a 10-second phrase.
- The webcam, face detection, screenshots, `open_file_gui` and the
  settings window.
- `ask_ai` and the OpenAI client. Only the text handed back is modelled
  (`Dispatch.AiResponseText`). The network, the model name and the token
  limits are out.
- `tts_speak`, the `pyttsx3` setup and the `speech_recognition` calls.
  They are abstracted as `Speak` effects and as `Listen.Tick` outcomes.
- `subprocess.run`. It is abstracted as `Runner.ProcessOutcome`.
- File writes and JSON persistence. `safe_write_file` is the `WriteFile`
  effect, and `save_settings` is not modelled apart from the save/load
  round trip.
- Text.Lower: lower-cases ASCII and Latin-1 capitals and the KELVIN SIGN
  only. Every other cased character lower-cases to a character outside
  ASCII, which no token, verb or keyword contains, and no cased character
  is whitespace. The one mapping that changes the length, U+0130 to "i"
  plus U+0307, is left out: its "i" is always followed by U+0307, so it can
  complete only a match ending in "i", and of those only "ask ai" exists,
  which the "ask" test already decides.
- Settings.Pairs, Settings.Pair, Settings.Overrides: accept only
  two-element lists with a string key and two-character strings as pairs. Python's `update` also accepts pairs with
  numeric, boolean or null keys, and two-key objects, whose keys come out
  in file order. The model treats those as rejected, which would give the
  defaults.
- Settings.Load: JSON numbers with a fraction are exact reals, not binary
  floating point. A missing file whose creation fails raises in the
  source; the model assumes the write succeeds.
- Dispatch.AiAnswered: the answer is a string. The `auto_write_ai_code_to`
  setting is taken as a string, though the settings file could hold any
  JSON value there.

=== FILE: dispatch.dfy ===
/** What the assistant does with a recognised phrase
    (`on_speech_recognized`), with the command and prompt entered in dialogs
    (`run_command_gui`, `ask_ai_dialog`) and with an AI answer once it
    arrives (`run_ai`). Each handler is a function from its input, and the
    user's answers to the questions it asks, to the effects it issues. */
module Dispatch {
  import opened Wrappers
  import opened Text
  import opened Risk
  import opened Effects

  /** Where a transcript is sent. */
  datatype Route =
      /** Begins with "ask": the prompt goes to the AI. */
    | AskAi(prompt: string)
      /** Begins with "run ": the rest runs as a shell command. */
    | RunShell(command: string)
      /** Anything else is spoken back. */
    | Echo

  const AskKeyword: string := "ask"
  const AskAiKeyword: string := "ask ai"
  const RunKeyword: string := "run "

  /** The prompt taken from an "ask" transcript: with at most two splits at
      whitespace, the last part when there are at least two parts, otherwise
      the whole transcript. The two words before it are dropped whatever
      they are. */
  function AskPrompt(text: string): (p: string)
    requires exists j :: 0 <= j < |text| && !IsSpace(text[j])
    ensures p != []
    ensures |p| <= |text|
    ensures PromptOfWords(text, p)
  {
    var parts := Split(text, 2);
    SplitWords(text, 2);
    if |parts| >= 2 then
      SplitPartsFit(text, parts);
      parts[|parts| - 1]
    else
      text
  }

  /** `p` is the prompt `text` gives, in terms of its words: the whole text
      when it is a single word, the second word when there are two, and
      otherwise the tail of the text that starts at the third word. */
  predicate PromptOfWords(text: string, p: string) {
    && (|Words(text)| == 1 ==> p == text)
    && (|Words(text)| == 2 ==> p == Words(text)[1])
    && (|Words(text)| > 2 ==>
         p != [] && !IsSpace(p[0]) && Words(p) == Words(text)[2..] && EndsWith(text, p))
  }

  /** A part of a split is never longer than the text it came from. */
  lemma SplitPartsFit(text: string, parts: seq<string>)
    requires parts == Split(text, 2) && |parts| >= 2
    ensures |parts[|parts| - 1]| <= |text|
  {
    SplitFromPartsFit(text, 0, 2);
  }

  lemma {:induction false} SplitFromPartsFit(s: string, i: nat, maxsplit: nat)
    requires i <= |s|
    ensures forall k :: 0 <= k < |SplitFrom(s, i, maxsplit)| ==> |SplitFrom(s, i, maxsplit)[k]| <= |s| - i
    decreases |s| - i
  {
    var b := SkipSpace(s, i);
    if b < |s| && maxsplit > 0 {
      var e := WordEnd(s, b);
      SplitFromPartsFit(s, e, maxsplit - 1);
    }
  }

  /** `text.lower().strip()`: what the keywords are matched against. */
  function Lowered(text: string): string {
    Strip(Lower(text))
  }

  /** The routing in `_handle`. The lower-cased, stripped transcript is
      matched with "ask ai" or "ask" first, then with "run "; the "ask ai"
      prefix is subsumed by the "ask" prefix. The command is cut from the original
      transcript at index 4, whatever whitespace preceded the keyword. */
  function RouteTranscript(text: string): (r: Route)
    ensures r.AskAi? <==> StartsWith(Lowered(text), AskKeyword)
    ensures r.AskAi? ==> r.prompt != [] && |r.prompt| <= |text| && PromptOfWords(text, r.prompt)
    ensures r.RunShell? <==>
      !StartsWith(Lowered(text), AskKeyword) && StartsWith(Lowered(text), RunKeyword)
    ensures r.RunShell? ==> |text| >= 4 && text == text[..4] + r.command
  {
    var lowered := Lowered(text);
    AskAiKeywordSubsumed(lowered);
    if StartsWith(lowered, AskAiKeyword) || StartsWith(lowered, AskKeyword) then
      RoutedTextHasWord(text, lowered);
      AskAi(AskPrompt(text))
    else if StartsWith(lowered, RunKeyword) then
      RoutedTextIsLong(text, lowered);
      RunShell(Drop(text, 4))
    else
      Echo
  }

  /** A transcript whose stripped lower-cased form is non-empty holds a
      non-whitespace character. */
  lemma RoutedTextHasWord(text: string, lowered: string)
    requires lowered == Lowered(text) && lowered != []
    ensures exists j :: 0 <= j < |text| && !IsSpace(text[j])
  {
    var i :| SurroundedBySpace(Lower(text), lowered, i);
    LowerKeepsSpace(text[i]);
  }

  /** Stripping never lengthens a transcript. */
  lemma RoutedTextIsLong(text: string, lowered: string)
    requires lowered == Lowered(text)
    ensures |lowered| <= |text|
  {
    var i :| SurroundedBySpace(Lower(text), lowered, i);
  }

  /** The "ask ai" test never decides a route on its own: every transcript
      that passes it passes the "ask" test too. */
  lemma AskAiKeywordSubsumed(s: string)
    ensures StartsWith(s, AskAiKeyword) ==> StartsWith(s, AskKeyword)
  {
    if StartsWith(s, AskAiKeyword) {
      assert s[..3] == s[..6][..3];
    }
  }

  /** Each route is taken exactly under its condition. */
  lemma RouteAsk(text: string)
    requires StartsWith(Lowered(text), AskKeyword)
    ensures RouteTranscript(text) == AskAi(AskPrompt(text))
  {
  }

  lemma RouteRunShell(text: string)
    requires !StartsWith(Lowered(text), AskKeyword) && StartsWith(Lowered(text), RunKeyword)
    ensures RouteTranscript(text) == RunShell(Drop(text, 4))
  {
  }

  lemma RouteEcho(text: string)
    requires !StartsWith(Lowered(text), AskKeyword) && !StartsWith(Lowered(text), RunKeyword)
    ensures RouteTranscript(text) == Echo
  {
  }

  /** A transcript whose lower-cased form begins with "ask" is a question. */
  lemma LoweredKeepsAsk(text: string)
    requires StartsWith(Lower(text), AskKeyword)
    ensures StartsWith(Lowered(text), AskKeyword)
  {
    var low := Lower(text);
    var r := Strip(low);
    var i :| SurroundedBySpace(low, r, i);
    assert !IsSpace(low[0]) && !IsSpace(low[2]);
    assert i == 0;
    assert |r| >= 3;
    assert r[..3] == low[..3];
  }

  /** A stripped transcript that begins with "r" is not a question. */
  lemma NotAskWhenR(text: string)
    requires Lowered(text) != [] && Lowered(text)[0] == 'r'
    ensures !StartsWith(Lowered(text), AskKeyword)
  {
  }

  /** Lower-casing keeps a prefix: the first `n` lower-cased characters of
      `a + b` are those of `a`. */
  lemma LowerPrefix(a: string, b: string, n: nat)
    requires n <= |a|
    ensures Lower(a + b)[..n] == Lower(a)[..n]
  {
    assert forall k :: 0 <= k < n ==> Lower(a + b)[k] == LowerChar(a[k]);
  }

  /** "ask", in any case, then a second word and a question: the prompt is
      the question alone. So "ask what time is it" asks the AI "time is it",
      and "ask ai what time is it" asks it "what time is it". */
  lemma AskDropsTwoWords(w1: string, w2: string, question: string)
    requires w1 != [] && NoSpace(w1) && StartsWith(Lower(w1), AskKeyword)
    requires w2 != [] && NoSpace(w2)
    requires question != [] && !IsSpace(question[0])
    ensures RouteTranscript(w1 + " " + w2 + " " + question) == AskAi(question)
  {
    var text := w1 + " " + w2 + " " + question;
    assert text == w1 + (" " + w2 + " " + question);
    LowerPrefix(w1, " " + w2 + " " + question, 3);
    LoweredKeepsAsk(text);
    SplitTwoWordsAndRest(w1, w2, question);
    RouteAsk(text);
  }

  /** Python lower-cases the KELVIN SIGN to `k`, so "as\u212A me" is a
      question, and with two words its prompt is the second one. */
  lemma KelvinSignAsks()
    ensures RouteTranscript("as\U{212A} me") == AskAi("me")
  {
    var text := "as\U{212A} me";
    assert Lower(text)[..3] == AskKeyword;
    LoweredKeepsAsk(text);
    KelvinSignWords();
    RouteAsk(text);
  }

  /** "as\u212A me" has two words, the second being "me". */
  lemma KelvinSignWords()
    ensures Words("as\U{212A} me") == ["as\U{212A}", "me"]
  {
    var text := "as\U{212A} me";
    assert text[0] == 'a' && text[1] == 's' && text[2] == KelvinSign && text[3] == ' ';
    assert text[4] == 'm' && text[5] == 'e' && |text| == 6;
    WordsFirstWord(text, 0, 3);
    WordsSkipSpace(text, 3, 4);
    WordsFirstWord(text, 4, 6);
    assert text[0..3] == "as\U{212A}" && text[4..6] == "me";
  }

  /** A single word beginning with "ask" (in any case) is its own prompt:
      "askew" asks the AI "askew". */
  lemma AskSingleWord(w: string)
    requires w != [] && NoSpace(w) && StartsWith(Lower(w), AskKeyword)
    ensures RouteTranscript(w) == AskAi(w)
  {
    SplitOneWord(w);
    LoweredKeepsAsk(w);
    RouteAsk(w);
  }

  /** Three sample phrases as the code routes them: "ask what time is it"
      asks the AI "time is it", not "what time is it"; "run ls" runs "ls";
      "hello there" is spoken back. */
  lemma AskWhatTimeIsIt()
    ensures RouteTranscript("ask what time is it") == AskAi("time is it")
  {
    var w1, w2, q := "ask", "what", "time is it";
    assert Lower(w1) == w1 by {
      assert forall k :: 0 <= k < |w1| ==> LowerChar(w1[k]) == w1[k];
    }
    assert w1 + " " + w2 + " " + q == "ask what time is it";
    AskDropsTwoWords(w1, w2, q);
  }

  lemma RunListing()
    ensures RouteTranscript("run ls") == RunShell("ls")
  {
    var verb := "run ";
    assert Lower(verb) == verb by {
      assert forall k :: 0 <= k < |verb| ==> LowerChar(verb[k]) == verb[k];
    }
    assert verb + "ls" == "run ls";
    assert !IsSpace("ls"[0]);
    RouteRun(verb, "ls");
  }

  lemma HelloIsEchoed()
    ensures RouteTranscript("hello there") == Echo
  {
    var text := "hello there";
    var low := Lower(text);
    assert low[0] == 'h';
    StripKeepsFirst(low);
    assert Lowered(text)[0] == 'h';
    RouteEcho(text);
  }

  /** "run " (in any case) followed by a command: the command is run exactly
      as spoken when it holds a non-whitespace character; otherwise the
      whole transcript is echoed. */
  lemma RouteRun(verb: string, command: string)
    requires Lower(verb) == RunKeyword
    ensures RouteTranscript(verb + command) ==
      if exists j :: 0 <= j < |command| && !IsSpace(command[j]) then RunShell(command) else Echo
  {
    assert |verb| == 4;
    LowerPrefix(verb, command, 4);
    assert Lower(verb)[..4] == Lower(verb);
    if j :| 0 <= j < |command| && !IsSpace(command[j]) {
      RunWithCommand(verb + command, j);
      assert (verb + command)[4..] == command;
    } else {
      RunWithoutCommand(verb + command);
    }
  }

  lemma RunWithCommand(text: string, j: nat)
    requires StartsWith(Lower(text), RunKeyword)
    requires 4 + j < |text| && !IsSpace(text[4 + j])
    ensures RouteTranscript(text) == RunShell(Drop(text, 4))
  {
    var low := Lower(text);
    LowerKeepsSpace(text[4 + j]);
    assert low[0] == 'r';
    StripKeepsPrefix(low, RunKeyword);
    NotAskWhenR(text);
    RouteRunShell(text);
  }

  lemma RunWithoutCommand(text: string)
    requires StartsWith(Lower(text), RunKeyword)
    requires forall k :: 4 <= k < |text| ==> IsSpace(text[k])
    ensures RouteTranscript(text) == Echo
  {
    var low := Lower(text);
    assert low[0] == 'r' && low[3] == ' ';
    StripKeepsFirst(low);
    var r := Strip(low);
    var i :| SurroundedBySpace(low, r, i);
    forall k | 3 <= k < |low|
      ensures IsSpace(low[k])
    {
      LowerKeepsSpace(text[k]);
    }
    assert |r| <= 3;
    NotAskWhenR(text);
    RouteEcho(text);
  }

  /** Leading whitespace before "run" moves the cut: the command keeps the
      tail of the keyword, so "  run ls" (two leading spaces) runs "n ls". */
  lemma LeadingSpaceShiftsCommand()
    ensures RouteTranscript("  run ls") == RunShell("n ls")
  {
    var text := "  run ls";
    LeadingSpaceLowered();
    NotAskWhenR(text);
    RouteRunShell(text);
    assert text[4..] == [text[4], text[5], text[6], text[7]];
  }

  lemma LeadingSpaceLowered()
    ensures Lowered("  run ls") == "run ls"
  {
    var text := "  run ls";
    var low := Lower(text);
    assert forall k :: 0 <= k < |text| ==> low[k] == text[k];
    assert low == text;
    SkipSpaceAt(low, 0, 2);
    assert TrailingStart(low, 2, |low|) == |low|;
    assert Strip(low) == low[2..];
  }

  /** The title of the confirmation asked before a risky command. */
  const RiskyTitle: string := "Risky command"

  /** The confirmation step shared by both entry points: a risky command
      asks the user first and, when refused, logs the abort and stops;
      otherwise the command's effects follow directly. */
  function Gate(risky: bool, message: string, confirmed: bool, aborted: string,
                proceed: seq<Effect>): (effects: seq<Effect>)
    ensures risky ==> effects != [] && effects[0] == AskYesNo(RiskyTitle, message)
    ensures !risky || confirmed ==>
      |proceed| <= |effects| && effects[|effects| - |proceed|..] == proceed
    ensures risky && !confirmed ==> |effects| == 2 && effects[1] == Log(aborted)
    ensures !risky ==> effects == proceed
    ensures risky && confirmed ==> effects == [AskYesNo(RiskyTitle, message)] + proceed
  {
    if risky then
      [AskYesNo(RiskyTitle, message)] + (if confirmed then proceed else [Log(aborted)])
    else
      proceed
  }

  /** Effect `i` is preceded by the risky-command confirmation. */
  predicate ConfirmedBefore(effects: seq<Effect>, i: int) {
    exists j :: 0 <= j < i && j < |effects| && effects[j].AskYesNo? && effects[j].title == RiskyTitle
  }

  /** Every risky command that is started was confirmed first. */
  predicate RiskyRunsConfirmed(effects: seq<Effect>) {
    forall i :: 0 <= i < |effects| && effects[i].Execute? && IsRisky(effects[i].command) ==>
      ConfirmedBefore(effects, i)
  }

  /** Every command started is `command`, run in the mode `interactive`. */
  predicate OnlyRuns(effects: seq<Effect>, command: string, interactive: bool) {
    forall i :: 0 <= i < |effects| && effects[i].Execute? ==> effects[i] == Execute(command, interactive)
  }

  /** The gate lets the command's effects through exactly when the command
      is safe or the user confirms it, and a risky command that gets
      through was asked about first. */
  lemma GateConfirms(command: string, interactive: bool, message: string, confirmed: bool, aborted: string,
                     proceed: seq<Effect>)
    requires OnlyRuns(proceed, command, interactive)
    ensures RiskyRunsConfirmed(Gate(IsRisky(command), message, confirmed, aborted, proceed))
    ensures OnlyRuns(Gate(IsRisky(command), message, confirmed, aborted, proceed), command, interactive)
    ensures Executions(Gate(IsRisky(command), message, confirmed, aborted, proceed)) ==
      if !IsRisky(command) || confirmed then Executions(proceed) else 0
  {
    var g := Gate(IsRisky(command), message, confirmed, aborted, proceed);
    if IsRisky(command) {
      var ask := [AskYesNo(RiskyTitle, message)];
      var rest := if confirmed then proceed else [Log(aborted)];
      assert g == ask + rest;
      ExecutionsAppend(ask, rest);
      forall i | 0 <= i < |g| && g[i].Execute? && IsRisky(g[i].command)
        ensures ConfirmedBefore(g, i)
      {
        assert g[0] == ask[0];
        assert g[i] == rest[i - 1];
      }
      assert OnlyRuns(g, command, interactive) by {
        forall i | 0 <= i < |g| && g[i].Execute?
          ensures g[i] == Execute(command, interactive)
        {
          assert g[i] == rest[i - 1];
        }
      }
    }
  }

  /** Putting effects that start nothing in front keeps both properties. */
  lemma PrependKeeps(head: seq<Effect>, rest: seq<Effect>, command: string, interactive: bool)
    requires Executions(head) == 0
    requires RiskyRunsConfirmed(rest) && OnlyRuns(rest, command, interactive)
    ensures RiskyRunsConfirmed(head + rest) && OnlyRuns(head + rest, command, interactive)
    ensures Executions(head + rest) == Executions(rest)
  {
    var e := head + rest;
    ExecutionsAppend(head, rest);
    forall i | 0 <= i < |head|
      ensures !e[i].Execute?
    {
      assert e[i] == head[i];
    }
    forall i | |head| <= i < |e|
      ensures e[i] == rest[i - |head|]
    {
    }
    forall i | 0 <= i < |e| && e[i].Execute? && IsRisky(e[i].command)
      ensures ConfirmedBefore(e, i)
    {
      assert ConfirmedBefore(rest, i - |head|);
      var j :| 0 <= j < i - |head| && j < |rest| && rest[j].AskYesNo? && rest[j].title == RiskyTitle;
      assert e[j + |head|] == rest[j];
    }
  }

  /** `run_ai`: the prompt is logged and the AI queried on a worker thread. */
  function RunAi(prompt: string): (effects: seq<Effect>)
    ensures |effects| == 2 && effects[1] == QueryAi(prompt)
    ensures effects[0] == Log("[AI] Prompt: " + prompt)
    ensures Executions(effects) == 0
  {
    [Log("[AI] Prompt: " + prompt), QueryAi(prompt)]
  }

  /** The proceed branch of the voice command. */
  function VoiceRun(command: string): (effects: seq<Effect>)
    ensures OnlyRuns(effects, command, false) && Executions(effects) == 1
    ensures Execute(command, false) in effects
  {
    var effects := [Log("[Voice] Running command: " + command), Execute(command, false)];
    assert effects[1..] == [Execute(command, false)];
    effects
  }

  /** What a routed transcript leads to, after the "[Mic]" line. */
  function Handle(route: Route, text: string, confirmed: bool): (effects: seq<Effect>)
    ensures effects != []
    ensures route.AskAi? ==> QueryAi(route.prompt) in effects && Executions(effects) == 0
    ensures route.Echo? ==> Speak("You said: " + text) in effects && Executions(effects) == 0
    ensures route.RunShell? ==>
      && RiskyRunsConfirmed(effects)
      && OnlyRuns(effects, route.command, false)
      && Executions(effects) == if confirmed || !IsRisky(route.command) then 1 else 0
  {
    match route
    case AskAi(prompt) => RunAi(prompt)
    case RunShell(command) =>
      var message := "Voice command appears risky:\n" + command + "\nRun anyway?";
      GateConfirms(command, false, message, confirmed, "[Voice] Command aborted by user", VoiceRun(command));
      Gate(IsRisky(command), message, confirmed, "[Voice] Command aborted by user", VoiceRun(command))
    case Echo =>
      var effects := [Speak("You said: " + text)];
      assert Executions(effects[1..]) == 0;
      effects
  }

  /** `on_speech_recognized`: the transcript is logged, then routed; a
      command runs non-interactively, after confirmation when it is risky. */
  function OnSpeech(text: string, confirmed: bool): (effects: seq<Effect>)
    ensures |effects| >= 2 && effects[0] == Log("[Mic] " + text)
  {
    [Log("[Mic] " + text)] + Handle(RouteTranscript(text), text, confirmed)
  }

  /** The voice path never starts a risky command without confirmation,
      starts at most one command, and starts it exactly when the transcript
      routes to a command that is either safe or confirmed; the command
      started is the routed one, non-interactive. */
  lemma OnSpeechGuarded(text: string, confirmed: bool)
    ensures RiskyRunsConfirmed(OnSpeech(text, confirmed))
    ensures Executions(OnSpeech(text, confirmed)) ==
      if RouteTranscript(text).RunShell? && (confirmed || !IsRisky(RouteTranscript(text).command))
      then 1 else 0
    ensures RouteTranscript(text).RunShell? ==>
      OnlyRuns(OnSpeech(text, confirmed), RouteTranscript(text).command, false)
  {
    var route := RouteTranscript(text);
    var head := [Log("[Mic] " + text)];
    var rest := Handle(route, text, confirmed);
    assert Executions(head) == 0;
    match route
    case AskAi(prompt) =>
      PrependKeeps(head, rest, [], false);
    case Echo =>
      assert Executions(rest) == 0;
      PrependKeeps(head, rest, [], false);
    case RunShell(command) =>
      GateConfirms(command, false, "Voice command appears risky:\n" + command + "\nRun anyway?", confirmed,
                   "[Voice] Command aborted by user", VoiceRun(command));
      PrependKeeps(head, rest, command, false);
  }

  /** A refused voice command is aborted: nothing runs, and the abort is the
      last thing logged. */
  lemma VoiceAbortStops(text: string)
    requires !StartsWith(Lowered(text), AskKeyword) && StartsWith(Lowered(text), RunKeyword)
    requires IsRisky(Drop(text, 4))
    ensures Executions(OnSpeech(text, false)) == 0
    ensures OnSpeech(text, false)[|OnSpeech(text, false)| - 1] == Log("[Voice] Command aborted by user")
  {
    RouteRunShell(text);
    OnSpeechGuarded(text, false);
  }

  /** A transcript that is neither a question nor a command is only spoken
      back: nothing runs, the AI is not queried, nothing is asked, and the
      answer the user would give does not matter. */
  lemma EchoIsInert(text: string, confirmed: bool)
    requires !StartsWith(Lowered(text), AskKeyword) && !StartsWith(Lowered(text), RunKeyword)
    ensures OnSpeech(text, confirmed) == OnSpeech(text, !confirmed)
    ensures forall i :: 0 <= i < |OnSpeech(text, confirmed)| ==>
      !OnSpeech(text, confirmed)[i].Execute? && !OnSpeech(text, confirmed)[i].QueryAi?
      && !OnSpeech(text, confirmed)[i].AskYesNo?
    ensures Speak("You said: " + text) in OnSpeech(text, confirmed)
  {
  }

  /** A question reaches the AI with its prompt and never asks for a
      confirmation. */
  lemma AskReachesAi(text: string, confirmed: bool)
    requires StartsWith(Lowered(text), AskKeyword)
    ensures QueryAi(RouteTranscript(text).prompt) in OnSpeech(text, confirmed)
    ensures forall i :: 0 <= i < |OnSpeech(text, confirmed)| ==> !OnSpeech(text, confirmed)[i].AskYesNo?
    ensures OnSpeech(text, confirmed) == OnSpeech(text, !confirmed)
  {
    RouteAsk(text);
    var p := RouteTranscript(text).prompt;
    assert OnSpeech(text, confirmed) == [Log("[Mic] " + text), Log("[AI] Prompt: " + p), QueryAi(p)];
  }

  /** The text `listen_loop` hands on after a request error (see `Listen`)
      begins with "[", so it is spoken back rather than run. */
  lemma SttErrorIsEchoed(reason: string)
    ensures RouteTranscript("[STT error: " + reason + "]").Echo?
  {
    var text := "[STT error: " + reason + "]";
    var low := Lower(text);
    assert low[0] == '[';
    StripKeepsFirst(low);
    assert Lowered(text)[0] == '[';
    RouteEcho(text);
  }

  /** The proceed branch of the dialog command. */
  function GuiRun(command: string, interactive: bool): (effects: seq<Effect>)
    ensures OnlyRuns(effects, command, interactive) && Executions(effects) == 1
    ensures |effects| == 3 && effects[0] == AskYesNo("Interactive", "Allow interactive mode?")
    ensures effects[2] == Execute(command, interactive)
  {
    var effects := [AskYesNo("Interactive", "Allow interactive mode?"), Log("[Run] " + command),
                    Execute(command, interactive)];
    assert effects[1..][1..] == [Execute(command, interactive)];
    assert Executions(effects[1..][1..]) == 1;
    assert Executions(effects[1..]) == 1;
    effects
  }

  /** `run_command_gui`. `entry` is what the command dialog returned (`None`
      when cancelled); `confirmed` and `interactive` are the user's answers
      to the risk and the interactive-mode questions. */
  function RunCommandGui(entry: Option<string>, confirmed: bool, interactive: bool): (effects: seq<Effect>)
    ensures effects == [] <==> entry.None? || entry.value == []
  {
    match entry
    case None => []
    case Some(command) =>
      if command == [] then []
      else
        Gate(IsRisky(command), "The command appears risky:\n" + command + "\nRun anyway?", confirmed,
             "[Command] Aborted by user", GuiRun(command, interactive))
  }

  /** The dialog path never starts a risky command without confirmation and
      starts exactly the entered command when one was entered and it is
      safe or confirmed; when it starts it, the interactive question was
      asked, and its answer is the mode the command runs in. */
  lemma RunCommandGuiGuarded(entry: Option<string>, confirmed: bool, interactive: bool)
    ensures RiskyRunsConfirmed(RunCommandGui(entry, confirmed, interactive))
    ensures Executions(RunCommandGui(entry, confirmed, interactive)) ==
      if entry.Some? && entry.value != [] && (confirmed || !IsRisky(entry.value)) then 1 else 0
    ensures Executions(RunCommandGui(entry, confirmed, interactive)) == 1 ==>
      && OnlyRuns(RunCommandGui(entry, confirmed, interactive), entry.value, interactive)
      && InteractiveAskedBeforeRun(RunCommandGui(entry, confirmed, interactive), entry.value, interactive)
  {
    if entry.Some? && entry.value != [] {
      var command := entry.value;
      var message := "The command appears risky:\n" + command + "\nRun anyway?";
      var run := GuiRun(command, interactive);
      GateConfirms(command, interactive, message, confirmed, "[Command] Aborted by user", run);
      if !IsRisky(command) || confirmed {
        GuiRunAskedBefore(IsRisky(command), message, confirmed, command, interactive);
      }
    }
  }

  /** Once the gate lets the dialog command through, the interactive
      question comes before the command starts. */
  lemma GuiRunAskedBefore(risky: bool, message: string, confirmed: bool, command: string, interactive: bool)
    requires !risky || confirmed
    ensures InteractiveAskedBeforeRun(
      Gate(risky, message, confirmed, "[Command] Aborted by user", GuiRun(command, interactive)), command, interactive)
  {
    var run := GuiRun(command, interactive);
    var g := Gate(risky, message, confirmed, "[Command] Aborted by user", run);
    var k := |g| - 3;
    assert g[k] == run[0] && g[k + 2] == run[2];
  }

  /** The interactive-mode question comes before the command is started in
      the mode it answered. */
  predicate InteractiveAskedBeforeRun(effects: seq<Effect>, command: string, interactive: bool) {
    exists i, j :: 0 <= i < j < |effects| && effects[i] == AskYesNo("Interactive", "Allow interactive mode?")
      && effects[j] == Execute(command, interactive)
  }

  /** `ask_ai_dialog`: a non-empty prompt goes to the AI, nothing else
      happens. */
  function AskAiDialog(entry: Option<string>): (effects: seq<Effect>)
    ensures effects == [] <==> entry.None? || entry.value == []
    ensures effects != [] ==> QueryAi(entry.value) in effects
    ensures Executions(effects) == 0
  {
    match entry
    case None => []
    case Some(prompt) => if prompt == [] then [] else RunAi(prompt)
  }

  /** What `ask_ai` returns: the answer's content or the error it caught. */
  datatype AiReply = Answered(content: string) | Failed(reason: string)

  const AiFailurePrefix: string := "[AI request failed: "

  /** The text `ask_ai` hands back: the answer stripped of surrounding
      whitespace, or the error bracketed. */
  function AiResponseText(reply: AiReply): (text: string)
    ensures reply.Answered? ==> text == [] || (!IsSpace(text[0]) && !IsSpace(text[|text| - 1]))
    ensures reply.Answered? ==> exists i :: SurroundedBySpace(reply.content, text, i)
    ensures reply.Failed? ==>
      StartsWith(text, AiFailurePrefix) && text[|text| - 1] == ']'
      && text[|AiFailurePrefix|..|text| - 1] == reply.reason
  {
    match reply
    case Answered(content) => Strip(content)
    case Failed(reason) => AiFailurePrefix + reason + "]"
  }

  /** A failure text is not marked apart from an answer: an answer whose
      content reads like a failure gives the same text. */
  lemma FailureReadsLikeAnswer(reason: string)
    ensures AiResponseText(Answered(AiFailurePrefix + reason + "]")) == AiResponseText(Failed(reason))
  {
    var t := AiFailurePrefix + reason + "]";
    assert t[0] == '[';
    StripUnchanged(t);
  }

  const SpeechPreviewLength: nat := 300

  /** The answer arriving on the worker thread. It is logged and its first
      300 characters spoken; then, on the main thread, the user is asked
      whether to save it (`save`) and, when they agree and choose a
      non-empty `path`, it is written there; finally it is written to the
      `auto_write_ai_code_to` setting when that is non-empty. */
  function AiAnswered(response: string, save: bool, path: string, autoWrite: string): (effects: seq<Effect>)
    ensures |effects| >= 4 && effects[0] == Log("[AI Response]") && effects[1] == Log(response)
  {
    AiShown(response) + AiSaved(response, save, path) + AiAutoWritten(response, autoWrite)
  }

  /** The part of the answer handling that shows and speaks it. */
  function AiShown(response: string): (effects: seq<Effect>)
    ensures |effects| == 4 && Writes(effects) == 0 && Executions(effects) == 0
  {
    var effects := [Log("[AI Response]"), Log(response), Speak(Take(response, SpeechPreviewLength)),
                    AskYesNo("Save AI response?", "Save AI response to file?")];
    assert effects[1..][1..][1..][1..] == [];
    effects
  }

  /** The save the user asked for. */
  function AiSaved(response: string, save: bool, path: string): (effects: seq<Effect>)
    ensures Writes(effects) == if save && path != [] then 1 else 0
    ensures Executions(effects) == 0
  {
    if save then
      var effects := [ChooseSaveFile] + (if path != [] then [WriteFile(path, response)] else []);
      assert effects[1..] == (if path != [] then [WriteFile(path, response)] else []);
      effects
    else []
  }

  /** The write to the configured file. */
  function AiAutoWritten(response: string, autoWrite: string): (effects: seq<Effect>)
    ensures Writes(effects) == if autoWrite != [] then 1 else 0
    ensures Executions(effects) == 0
  {
    if autoWrite != [] then [WriteFile(autoWrite, response)] else []
  }

  /** The chosen file is written only when the user agreed to save and
      chose one, the setting's file only when it is set, and nothing runs. */
  lemma AiAnsweredWrites(response: string, save: bool, path: string, autoWrite: string)
    ensures Writes(AiAnswered(response, save, path, autoWrite)) ==
      (if save && path != [] then 1 else 0) + (if autoWrite != [] then 1 else 0)
    ensures Executions(AiAnswered(response, save, path, autoWrite)) == 0
  {
    var a := AiShown(response);
    var b := AiSaved(response, save, path);
    var c := AiAutoWritten(response, autoWrite);
    WritesAppend(a, b);
    WritesAppend(a + b, c);
    ExecutionsAppend(a, b);
    ExecutionsAppend(a + b, c);
  }

  /** Every file written holds the whole answer, written to the chosen path
      or the configured one, the chosen one first; and what is spoken is the
      answer's first 300 characters (all of it when shorter). */
  lemma AiAnsweredContent(response: string, save: bool, path: string, autoWrite: string)
    ensures forall i :: 0 <= i < |AiAnswered(response, save, path, autoWrite)| ==>
      (AiAnswered(response, save, path, autoWrite)[i].WriteFile? ==>
        && AiAnswered(response, save, path, autoWrite)[i].content == response
        && AiAnswered(response, save, path, autoWrite)[i].path in {path, autoWrite})
    ensures save && path != [] ==> AiAnswered(response, save, path, autoWrite)[5] == WriteFile(path, response)
    ensures AiAnswered(response, save, path, autoWrite)[2].Speak?
    ensures StartsWith(response, AiAnswered(response, save, path, autoWrite)[2].text)
    ensures |AiAnswered(response, save, path, autoWrite)[2].text| ==
      if |response| < SpeechPreviewLength then |response| else SpeechPreviewLength
  {
  }
}

=== FILE: effects.dfy ===
/** What the assistant does in response to input, one value per visible
    action, in the order the source issues them. Work the source hands to a
    worker thread appears as the effect that starts it. */
module Effects {

  datatype Effect =
      /** `log_print`: a line appended to the log pane. */
    | Log(line: string)
      /** `messagebox.askyesno`: a yes/no question put to the user. */
    | AskYesNo(title: string, message: string)
      /** `messagebox.showerror` */
    | ShowError(title: string, message: string)
      /** `ask_ai` started on a worker thread. */
    | QueryAi(prompt: string)
      /** `run_command` started on a worker thread; its text is logged when
          it returns. */
    | Execute(command: string, interactive: bool)
      /** `tts_speak` started on a worker thread. */
    | Speak(text: string)
      /** `filedialog.asksaveasfilename` */
    | ChooseSaveFile
      /** `safe_write_file`, with its status message logged. */
    | WriteFile(path: string, content: string)
      /** `background_listen_loop` started on a daemon thread. */
    | StartListener

  /** How many commands a sequence of effects starts. */
  function Executions(effects: seq<Effect>): (n: nat)
    ensures n <= |effects|
    ensures n == 0 <==> forall i :: 0 <= i < |effects| ==> !effects[i].Execute?
  {
    if effects == [] then 0
    else (if effects[0].Execute? then 1 else 0) + Executions(effects[1..])
  }

  /** How many file writes a sequence of effects performs. */
  function Writes(effects: seq<Effect>): (n: nat)
    ensures n <= |effects|
    ensures n == 0 <==> forall i :: 0 <= i < |effects| ==> !effects[i].WriteFile?
  {
    if effects == [] then 0
    else (if effects[0].WriteFile? then 1 else 0) + Writes(effects[1..])
  }

  /** How many listener threads a sequence of effects starts. */
  function ListenerStarts(effects: seq<Effect>): (n: nat)
    ensures n <= |effects|
    ensures n == 0 <==> StartListener !in effects
  {
    if effects == [] then 0
    else (if effects[0] == StartListener then 1 else 0) + ListenerStarts(effects[1..])
  }

  lemma {:induction false} ExecutionsAppend(a: seq<Effect>, b: seq<Effect>)
    ensures Executions(a + b) == Executions(a) + Executions(b)
  {
    if a == [] {
      assert a + b == b;
    } else {
      assert (a + b)[0] == a[0] && (a + b)[1..] == a[1..] + b;
      ExecutionsAppend(a[1..], b);
    }
  }

  lemma {:induction false} WritesAppend(a: seq<Effect>, b: seq<Effect>)
    ensures Writes(a + b) == Writes(a) + Writes(b)
  {
    if a == [] {
      assert a + b == b;
    } else {
      assert (a + b)[0] == a[0] && (a + b)[1..] == a[1..] + b;
      WritesAppend(a[1..], b);
    }
  }
}

=== FILE: listen.dfy ===
/** The background speech-capture loop (`background_listen_loop`) and the
    start/stop toggle that drives it. The microphone and the recogniser are
    abstracted: each pass of the loop is one `Tick` saying how it ended. */
module Listen {
  import opened Effects

  /** How the microphone setup before the loop went. */
  datatype Startup =
      /** `sr.Microphone()` failed when the program started. */
    | NoMicrophone
      /** `adjust_for_ambient_noise` raised. */
    | CalibrationFailed(reason: string)
    | Calibrated

  /** One pass of the loop, decided when the listening flag is checked. */
  datatype Tick =
      /** The flag is set and the recogniser returned a transcript. */
    | Heard(text: string)
      /** The flag is set and the speech was not understood. */
    | NotUnderstood
      /** The flag is set and the recognition service raised a request
          error. */
    | RequestFailed(reason: string)
      /** The flag is set and listening itself raised (a timeout waiting for
          speech among others); the loop sleeps a second and goes on. */
    | ListenFailed(reason: string)
      /** The flag was found cleared: the loop ends. */
    | FlagCleared

  /** What a run of the loop did: the texts handed to the callback, in
      order, the lines written to the log file, and whether it returned. */
  datatype LoopRun = LoopRun(callbacks: seq<string>, logged: seq<string>, ended: bool)

  /** The text handed on after a request error. */
  function SttError(reason: string): (text: string)
    ensures |text| == |reason| + 13 && text[0] == '[' && text[|text| - 1] == ']'
    ensures text[..12] == "[STT error: " && text[12..|text| - 1] == reason
  {
    "[STT error: " + reason + "]"
  }

  /** The passes of the loop until the flag is found cleared. A tick
      sequence that runs out without a cleared flag is a loop still running. */
  function Loop(ticks: seq<Tick>): (run: LoopRun)
    ensures run.ended <==> FlagCleared in ticks
    ensures |run.callbacks| + |run.logged| <= |ticks|
  {
    if ticks == [] then LoopRun([], [], false)
    else
      match ticks[0]
      case FlagCleared => LoopRun([], [], true)
      case Heard(text) =>
        var rest := Loop(ticks[1..]);
        rest.(callbacks := [text] + rest.callbacks)
      case NotUnderstood => Loop(ticks[1..])
      case RequestFailed(reason) =>
        var rest := Loop(ticks[1..]);
        rest.(callbacks := [SttError(reason)] + rest.callbacks)
      case ListenFailed(reason) =>
        var rest := Loop(ticks[1..]);
        rest.(logged := ["Background listen error: " + reason] + rest.logged)
  }

  /** `background_listen_loop`: without a microphone, or when calibration
      fails, it logs why and returns before the loop, having called back
      nothing; otherwise it logs the calibration and loops. */
  function ListenLoop(startup: Startup, ticks: seq<Tick>): (run: LoopRun)
    ensures startup != Calibrated ==> run.callbacks == [] && run.ended && |run.logged| == 1
    ensures startup == Calibrated ==> run.callbacks == Loop(ticks).callbacks && run.ended == Loop(ticks).ended
  {
    match startup
    case NoMicrophone => LoopRun([], ["Microphone not available"], true)
    case CalibrationFailed(reason) => LoopRun([], ["Microphone calibration failed: " + reason], true)
    case Calibrated =>
      var run := Loop(ticks);
      run.(logged := ["Microphone calibrated"] + run.logged)
  }

  /** What one tick hands to the callback. */
  function Callback(t: Tick): (c: seq<string>)
    ensures |c| <= 1
    ensures c != [] <==> t.Heard? || t.RequestFailed?
  {
    match t
    case Heard(text) => [text]
    case RequestFailed(reason) => [SttError(reason)]
    case _ => []
  }

  /** The callbacks the ticks ask for, ignoring the flag: a reference
      definition, tick by tick. */
  function CallbacksOf(ticks: seq<Tick>): seq<string> {
    if ticks == [] then [] else Callback(ticks[0]) + CallbacksOf(ticks[1..])
  }

  /** Before the flag is cleared, the loop hands on exactly the callbacks
      the ticks ask for, in order, and keeps going. */
  lemma {:induction false} LoopFollowsTicks(ticks: seq<Tick>)
    requires FlagCleared !in ticks
    ensures Loop(ticks).callbacks == CallbacksOf(ticks)
    ensures !Loop(ticks).ended
  {
    if ticks != [] {
      assert FlagCleared !in ticks[1..] by {
        forall t | t in ticks[1..] ensures t != FlagCleared {
          assert t in ticks;
        }
      }
      LoopFollowsTicks(ticks[1..]);
    }
  }

  /** Passes run one after another: a run without a cleared flag followed
      by more passes gives the callbacks of both, in order. */
  lemma {:induction false} LoopAppend(a: seq<Tick>, b: seq<Tick>)
    requires FlagCleared !in a
    ensures Loop(a + b).callbacks == Loop(a).callbacks + Loop(b).callbacks
    ensures Loop(a + b).logged == Loop(a).logged + Loop(b).logged
    ensures Loop(a + b).ended == Loop(b).ended
  {
    if a == [] {
      assert a + b == b;
    } else {
      assert (a + b)[0] == a[0] && (a + b)[1..] == a[1..] + b;
      assert a[0] in a;
      assert FlagCleared !in a[1..] by {
        forall t | t in a[1..] ensures t != FlagCleared {
          assert t in a;
        }
      }
      LoopAppend(a[1..], b);
      LoopStep(a + b);
      LoopStep(a);
      var logged := if a[0].ListenFailed? then ["Background listen error: " + a[0].reason] else [];
      RunsConcatenate(Loop(a + b), Loop(a[1..] + b), Loop(a), Loop(a[1..]), Loop(b), Callback(a[0]), logged);
    }
  }

  /** A pass in front of a run that is itself two runs in a row: its
      callbacks and log lines go in front of the first run's. */
  lemma RunsConcatenate(whole: LoopRun, rest: LoopRun, first: LoopRun, firstRest: LoopRun, second: LoopRun,
                        callbacks: seq<string>, logged: seq<string>)
    requires whole.callbacks == callbacks + rest.callbacks && whole.logged == logged + rest.logged
    requires whole.ended == rest.ended
    requires first.callbacks == callbacks + firstRest.callbacks && first.logged == logged + firstRest.logged
    requires rest.callbacks == firstRest.callbacks + second.callbacks && rest.logged == firstRest.logged + second.logged
    requires rest.ended == second.ended
    ensures whole.callbacks == first.callbacks + second.callbacks
    ensures whole.logged == first.logged + second.logged
    ensures whole.ended == second.ended
  {
  }

  /** One pass that does not find the flag cleared adds its callback and
      its log line in front of what the remaining passes do. */
  lemma LoopStep(ticks: seq<Tick>)
    requires ticks != [] && ticks[0] != FlagCleared
    ensures Loop(ticks).callbacks == Callback(ticks[0]) + Loop(ticks[1..]).callbacks
    ensures Loop(ticks).logged ==
      (if ticks[0].ListenFailed? then ["Background listen error: " + ticks[0].reason] else [])
      + Loop(ticks[1..]).logged
    ensures Loop(ticks).ended == Loop(ticks[1..]).ended
  {
  }

  /** Once the flag is found cleared nothing further happens: whatever the
      microphone would have delivered afterwards is never handed on. */
  lemma {:induction false} LoopStopsAtClear(a: seq<Tick>, b: seq<Tick>)
    requires FlagCleared !in a
    ensures Loop(a + [FlagCleared] + b) == Loop(a + [FlagCleared])
    ensures Loop(a + [FlagCleared]).callbacks == CallbacksOf(a)
    ensures Loop(a + [FlagCleared]).ended
  {
    LoopAppend(a, [FlagCleared] + b);
    LoopAppend(a, [FlagCleared]);
    assert a + [FlagCleared] + b == a + ([FlagCleared] + b);
    LoopFollowsTicks(a);
  }

  /** A pass that is not understood, or whose listening fails, hands
      nothing on and does not end the loop. */
  lemma SilentPassesHandNothing(a: seq<Tick>, t: Tick, b: seq<Tick>)
    requires FlagCleared !in a && (t == NotUnderstood || t.ListenFailed?)
    ensures Loop(a + [t] + b).callbacks == Loop(a + b).callbacks
    ensures Loop(a + [t] + b).ended == Loop(b).ended
  {
    assert a + [t] + b == a + ([t] + b);
    LoopAppend(a, [t] + b);
    LoopAppend(a, b);
    assert ([t] + b)[1..] == b;
  }

  /** Transcripts heard one after another are handed on unchanged and in
      order. */
  lemma {:induction false} HeardInOrder(texts: seq<string>)
    ensures Loop(seq(|texts|, i requires 0 <= i < |texts| => Heard(texts[i]))).callbacks == texts
  {
    var ticks := seq(|texts|, i requires 0 <= i < |texts| => Heard(texts[i]));
    if texts != [] {
      assert ticks[1..] == seq(|texts[1..]|, i requires 0 <= i < |texts[1..]| => Heard(texts[1..][i]));
      HeardInOrder(texts[1..]);
      assert texts == [texts[0]] + texts[1..];
    }
  }

  /** The listening state the window keeps (`self.listening`) and the shared
      flag the loop checks (`listening_flag`). */
  datatype Listener = Listener(listening: bool, flag: bool)

  const NoMicMessage: string := "No microphone available. Install PyAudio for Windows."

  /** `toggle_listen`: start when not listening, stop otherwise. Starting
      needs a microphone; without one an error is shown and nothing
      changes. */
  function Toggle(s: Listener, micAvailable: bool): (r: (Listener, seq<Effect>))
    ensures s.listening ==> r.0 == Listener(false, false)
    ensures !s.listening && micAvailable ==> r.0 == Listener(true, true)
    ensures !s.listening && !micAvailable ==> r.0 == s
  {
    if !s.listening then
      if !micAvailable then
        (s, [ShowError("No mic", NoMicMessage)])
      else
        (Listener(true, true), [Log("Listening started"), StartListener])
    else
      (Listener(false, false), [Log("Listening stopped")])
  }

  /** `quit`, when the user confirms it: the flag is cleared so the loop
      ends at its next check. */
  function Quit(s: Listener, confirmed: bool): (r: (Listener, seq<Effect>))
    ensures confirmed ==> !r.0.flag
    ensures !confirmed ==> r.0 == s
    ensures r.0.listening == s.listening
    ensures r.1 == [AskYesNo("Quit", "Quit the assistant?")]
  {
    (if confirmed then s.(flag := false) else s, [AskYesNo("Quit", "Quit the assistant?")])
  }

  /** Quitting twice with the same answer is quitting once, and a refused
      quit leaves a running loop running. */
  lemma QuitIdempotent(s: Listener, confirmed: bool)
    ensures Quit(Quit(s, confirmed).0, confirmed) == Quit(s, confirmed)
    ensures !confirmed && s.flag ==> Quit(s, confirmed).0.flag
  {
  }

  /** The toggle keeps the window's state and the flag in step, and starts
      a listener thread only when it was not listening and a microphone is
      there, and then exactly one. */
  lemma ToggleKeepsStep(s: Listener, micAvailable: bool)
    requires s.listening == s.flag
    ensures Toggle(s, micAvailable).0.listening == Toggle(s, micAvailable).0.flag
    ensures ListenerStarts(Toggle(s, micAvailable).1) == if !s.listening && micAvailable then 1 else 0
  {
    var effects := Toggle(s, micAvailable).1;
    if !s.listening && micAvailable {
      assert effects[1..] == [StartListener];
    }
  }

  /** With a microphone, toggling twice returns to where it started. */
  lemma ToggleTwice(s: Listener)
    requires s.listening == s.flag
    ensures Toggle(Toggle(s, true).0, true).0 == s
  {
  }
}

=== FILE: risk.dfy ===
/** The advisory risk heuristic consulted before any shell command runs
    (`is_risky_command`). It is a denylist of substrings and command prefixes,
    not a security boundary: the lemmas at the end show commands it flags
    although they are harmless, and a destructive one it lets through. */
module Risk {
  import opened Text

  /** `DANGEROUS_TOKENS`, in the source's order: recursive delete, fork bomb,
      shutdown/reboot, disk formatting and raw disk writes. */
  const DangerousTokens: seq<string> :=
    ["rm -rf", ":(){:|:&};:", "shutdown", "reboot", "format", "mkfs", "dd if="]

  /** The privilege-escalation token, matched anywhere in the command. */
  const EscalationToken: string := "sudo"

  /** Destructive verbs, matched only at the start of the stripped command. */
  const DestructivePrefixes: seq<string> := ["del ", "rm ", "rmdir ", "format "]

  predicate HasDangerousToken(lower: string) {
    exists k | 0 <= k < |DangerousTokens| :: Contains(lower, DangerousTokens[k])
  }

  predicate HasDestructivePrefix(stripped: string) {
    exists k | 0 <= k < |DestructivePrefixes| :: StartsWith(stripped, DestructivePrefixes[k])
  }

  /** The three rules, any one of which makes a command risky: on the
      lower-cased command, a dangerous token occurs anywhere, or "sudo" occurs
      anywhere, or, once surrounding whitespace is stripped, it begins with a
      destructive verb. */
  predicate IsRisky(cmd: string) {
    var lower := Lower(cmd);
    || HasDangerousToken(lower)
    || Contains(lower, EscalationToken)
    || HasDestructivePrefix(Strip(lower))
  }

  /** `is_risky_command`: the rules checked in the source's order, returning
      as soon as one matches. */
  method IsRiskyCommand(cmd: string) returns (risky: bool)
    ensures risky <==> IsRisky(cmd)
  {
    var lower := Lower(cmd);
    for i := 0 to |DangerousTokens|
      invariant forall k :: 0 <= k < i ==> !Contains(lower, DangerousTokens[k])
    {
      if IndexOf(lower, DangerousTokens[i]).Some? {
        return true;
      }
    }
    if IndexOf(lower, EscalationToken).Some? {
      return true;
    }
    var stripped := Strip(lower);
    for i := 0 to |DestructivePrefixes|
      invariant forall k :: 0 <= k < i ==> !StartsWith(stripped, DestructivePrefixes[k])
    {
      if StartsWith(stripped, DestructivePrefixes[i]) {
        return true;
      }
    }
    return false;
  }

  /** The verdict ignores case: a command and its lower-cased form are
      classified alike. */
  lemma RiskIgnoresCase(cmd: string)
    ensures IsRisky(Lower(cmd)) == IsRisky(cmd)
  {
    LowerIdempotent(cmd);
  }

  /** The empty command is safe. */
  lemma EmptyIsSafe()
    ensures !IsRisky("")
  {
    assert Strip("") == "";
  }

  /** The "format " prefix rule never decides anything: a command it matches
      already contains the dangerous token "format". */
  lemma FormatPrefixSubsumed(cmd: string)
    requires StartsWith(Strip(Lower(cmd)), "format ")
    ensures HasDangerousToken(Lower(cmd))
  {
    var lower := Lower(cmd);
    var r := Strip(lower);
    var i :| SurroundedBySpace(lower, r, i);
    assert r[..7] == "format ";
    assert r[..6] == r[..7][..6] == "format";
    assert lower[i..i + 6] == r[..6];
    assert OccursAt(lower, DangerousTokens[4], i);
  }

  /** One occurrence of a dangerous token makes a command risky. */
  lemma TokenMakesRisky(cmd: string, k: nat, i: nat)
    requires k < |DangerousTokens| && OccursAt(Lower(cmd), DangerousTokens[k], i)
    ensures IsRisky(cmd)
  {
    assert Contains(Lower(cmd), DangerousTokens[k]);
  }

  /** A recursive delete is risky. */
  lemma RecursiveDeleteIsRisky()
    ensures IsRisky("rm -rf /tmp/x")
  {
    assert Lower("rm -rf /tmp/x") == "rm -rf /tmp/x";
    TokenMakesRisky("rm -rf /tmp/x", 0, 0);
  }

  /** Privilege escalation is risky, in any case. */
  lemma SudoIsRisky()
    ensures IsRisky("sudo apt update")
    ensures IsRisky("SUDO apt update")
  {
    assert Lower("sudo apt update") == "sudo apt update";
    assert Lower("SUDO apt update") == "sudo apt update";
    assert OccursAt("sudo apt update", EscalationToken, 0);
  }

  /** A destructive verb at the start is risky. */
  lemma DeleteVerbIsRisky()
    ensures IsRisky("del file.txt")
  {
    assert Lower("del file.txt") == "del file.txt";
    StripUnchanged("del file.txt");
    assert StartsWith("del file.txt", DestructivePrefixes[0]);
  }

  /** A destructive verb counts after leading whitespace too. */
  lemma IndentedVerbIsRisky()
    ensures IsRisky(" rmdir x")
  {
    var cmd := " rmdir x";
    assert Lower(cmd) == cmd;
    assert StartsWith(Strip(cmd), DestructivePrefixes[2]) by {
      assert Strip(cmd) == "rmdir x";
    }
  }

  /** A lower-case command with no whitespace at its ends is safe when it
      misses some character of every dangerous token (`missing[k]` for token
      `k`) and a character of "sudo" (`c`), and begins with no destructive
      verb. */
  lemma SafeWhenCharsMissing(cmd: string, missing: string, c: char)
    requires Lower(cmd) == cmd
    requires cmd != [] && !IsSpace(cmd[0]) && !IsSpace(cmd[|cmd| - 1])
    requires |missing| == |DangerousTokens|
    requires forall k :: 0 <= k < |missing| ==> missing[k] in DangerousTokens[k] && missing[k] !in cmd
    requires c in EscalationToken && c !in cmd
    requires forall k :: 0 <= k < |DestructivePrefixes| ==> !StartsWith(cmd, DestructivePrefixes[k])
    ensures !IsRisky(cmd)
  {
    LacksTokens(cmd, missing);
    MissingCharNotContained(cmd, EscalationToken, c);
    StripUnchanged(cmd);
  }

  /** A directory listing is safe. */
  lemma ListingIsSafe()
    ensures !IsRisky("ls -la")
  {
    assert Lower("ls -la") == "ls -la";
    SafeWhenCharsMissing("ls -la", "r:urfkf", 'u');
  }

  /** A command lacks every dangerous token when, for each token, some
      character of the token is missing from it; `missing[k]` names that
      character for token `k`. */
  lemma LacksTokens(s: string, missing: string)
    requires |missing| == |DangerousTokens|
    requires forall k :: 0 <= k < |missing| ==> missing[k] in DangerousTokens[k] && missing[k] !in s
    ensures !HasDangerousToken(s)
  {
    forall k | 0 <= k < |DangerousTokens|
      ensures !Contains(s, DangerousTokens[k])
    {
      MissingCharNotContained(s, DangerousTokens[k], missing[k]);
    }
  }

  /** The check sees the command lower-cased, and Python lower-cases the
      KELVIN SIGN to `k`: "m\u212Afs /dev/sda" is flagged as "mkfs". */
  lemma KelvinSignIsRisky()
    ensures IsRisky("m\U{212A}fs /dev/sda")
  {
    var cmd := "m\U{212A}fs /dev/sda";
    assert Lower(cmd) == "mkfs /dev/sda";
    TokenMakesRisky(cmd, 5, 0);
  }

  /** The heuristic flags harmless commands whose words merely contain a
      token. */
  lemma FormatInWordIsRisky()
    ensures IsRisky("cat information")
  {
    assert Lower("cat information") == "cat information";
    TokenMakesRisky("cat information", 4, 6);
  }

  /** Likewise "sudo" inside a file name. */
  lemma SudoInWordIsRisky()
    ensures IsRisky("cat sudoku")
  {
    assert Lower("cat sudoku") == "cat sudoku";
    assert OccursAt("cat sudoku", EscalationToken, 4);
  }

  /** The heuristic misses a delete chained after a harmless command,
      although the same delete is flagged on its own. */
  lemma ChainedDeleteUnflagged()
    ensures IsRisky("rm a")
    ensures !IsRisky("ls; rm a")
  {
    assert Lower("rm a") == "rm a";
    StripUnchanged("rm a");
    assert StartsWith("rm a", DestructivePrefixes[1]);
    assert Lower("ls; rm a") == "ls; rm a";
    SafeWhenCharsMissing("ls; rm a", "-:ubfkd", 'u');
  }
}

=== FILE: runner.dfy ===
/** The text `run_command` hands back for every way a shell command can end.
    The shell itself is not modelled: what `subprocess.run` did is an input,
    and the result is a pure function of it. `Read`, the way a consumer of
    that text tells the cases apart, is its inverse wherever the text is
    unambiguous (`Unambiguous`): captured output printed alone must not
    look like one of the reports, and output printed next to standard error
    must not hold the header that separates the two. */
module Runner {
  import opened Wrappers
  import opened Text

  /** What `subprocess.run` did with the command. */
  datatype ProcessOutcome =
      /** The process exited; `stdout` and `stderr` are what was captured
          (nothing is captured in interactive mode, so there they are unused). */
    | Exited(code: int, stdout: string, stderr: string)
      /** `TimeoutExpired`: the 30-second limit passed and the process was
          killed. Only a non-interactive run has that limit; the interactive
          `subprocess.run` waits without one. */
    | TimedOut
      /** Any other exception, such as a shell that cannot be started. */
    | SpawnFailed(reason: string)

  /** The opening shared by the two error reports. */
  const ErrorLead: string := "[Error"
  const TimeoutReport: string := ErrorLead + ": Command timed out after 30 seconds]"
  const ReturnCodePrefix: string := "Return code: "
  const StdoutHeader: string := "STDOUT:\n"
  const StderrHeader: string := "\n\nSTDERR:\n"
  const CompletedPrefix: string := "Command completed with return code "
  const SpawnPrefix: string := ErrorLead + " running command: "

  /** `run_command(cmd, allow_interactive)` once the process has ended with
      `outcome`. The result is never empty, and captured standard output with
      nothing on standard error comes back exactly as printed. */
  function RunCommand(interactive: bool, outcome: ProcessOutcome): (r: string)
    ensures r != []
    ensures !interactive && outcome.Exited? && outcome.stderr == [] && outcome.stdout != []
            ==> r == outcome.stdout
  {
    match outcome
    case Exited(code, out, err) =>
      if interactive then ReturnCodePrefix + IntToString(code)
      else if err != [] then StdoutHeader + out + StderrHeader + err
      else if out != [] then out
      else CompletedPrefix + IntToString(code)
    case TimedOut => TimeoutReport
    case SpawnFailed(reason) => SpawnPrefix + reason + "]"
  }

  /** The cases a reader of `run_command`'s text can tell apart. */
  datatype Report =
    | ReturnCode(code: int)
    | Streams(stdout: string, stderr: string)
    | CompletedSilently(code: int)
    | TimeoutNotice
    | SpawnError(reason: string)
    | Output(text: string)

  /** Reads a result text back: the fixed reports by their prefixes (the
      two streams split at the first stderr header), anything else as output. */
  function Read(s: string): Report {
    if StartsWith(s, ReturnCodePrefix) && ParseInt(s[|ReturnCodePrefix|..]).Some? then
      ReturnCode(ParseInt(s[|ReturnCodePrefix|..]).value)
    else if StartsWith(s, StdoutHeader) && IndexOf(s[|StdoutHeader|..], StderrHeader).Some? then
      var body := s[|StdoutHeader|..];
      var k := IndexOf(body, StderrHeader).value;
      Streams(body[..k], body[k + |StderrHeader|..])
    else if StartsWith(s, CompletedPrefix) && ParseInt(s[|CompletedPrefix|..]).Some? then
      CompletedSilently(ParseInt(s[|CompletedPrefix|..]).value)
    else if s == TimeoutReport then
      TimeoutNotice
    else if StartsWith(s, SpawnPrefix) && |s| > |SpawnPrefix| && s[|s| - 1] == ']' then
      SpawnError(s[|SpawnPrefix|..|s| - 1])
    else
      Output(s)
  }

  /** Output that begins like one of the fixed reports. */
  predicate LooksLikeReport(s: string) {
    || StartsWith(s, ReturnCodePrefix)
    || StartsWith(s, StdoutHeader)
    || StartsWith(s, CompletedPrefix)
    || StartsWith(s, ErrorLead)
  }

  /** The outcomes whose text cannot be mistaken for another's: captured
      standard output must not itself contain a blank line followed by
      "STDERR:" when both streams are shown, nor look like a report when it
      is shown alone. */
  predicate Unambiguous(interactive: bool, outcome: ProcessOutcome) {
    outcome.Exited? && !interactive ==>
      && (outcome.stderr != [] ==> !Contains(outcome.stdout, StderrHeader[..9]))
      && (outcome.stderr == [] && outcome.stdout != [] ==> !LooksLikeReport(outcome.stdout))
  }

  /** Reading the text back recovers the outcome: the exit code of an
      interactive run or of a silent one, both streams separately, the
      timeout, the spawn error's message, or the output as printed. */
  lemma ReadRunCommand(interactive: bool, outcome: ProcessOutcome)
    requires Unambiguous(interactive, outcome)
    ensures outcome.TimedOut? ==> Read(RunCommand(interactive, outcome)) == TimeoutNotice
    ensures outcome.SpawnFailed? ==>
              Read(RunCommand(interactive, outcome)) == SpawnError(outcome.reason)
    ensures outcome.Exited? && interactive ==>
              Read(RunCommand(interactive, outcome)) == ReturnCode(outcome.code)
    ensures outcome.Exited? && !interactive && outcome.stderr != [] ==>
              Read(RunCommand(interactive, outcome)) == Streams(outcome.stdout, outcome.stderr)
    ensures outcome.Exited? && !interactive && outcome.stderr == [] && outcome.stdout == [] ==>
              Read(RunCommand(interactive, outcome)) == CompletedSilently(outcome.code)
    ensures outcome.Exited? && !interactive && outcome.stderr == [] && outcome.stdout != [] ==>
              Read(RunCommand(interactive, outcome)) == Output(outcome.stdout)
  {
    match outcome
    case TimedOut => ReadTimeout();
    case SpawnFailed(reason) => ReadSpawnError(reason);
    case Exited(code, out, err) =>
      if interactive {
        ReadReturnCode(code);
      } else if err != [] {
        ReadStreams(out, err);
      } else if out == [] {
        ReadCompletedSilently(code);
      } else {
        ReadOutput(out);
      }
  }

  lemma ReadTimeout()
    ensures Read(TimeoutReport) == TimeoutNotice
  {
    assert TimeoutReport[0] == '[' && CompletedPrefix[0] == 'C';
    assert !StartsWith(TimeoutReport, ReturnCodePrefix);
    assert !StartsWith(TimeoutReport, StdoutHeader);
    assert !StartsWith(TimeoutReport, CompletedPrefix);
  }

  lemma ReadSpawnError(reason: string)
    ensures Read(SpawnPrefix + reason + "]") == SpawnError(reason)
  {
    var s := SpawnPrefix + reason + "]";
    assert s[0] == '[' && CompletedPrefix[0] == 'C';
    assert !StartsWith(s, ReturnCodePrefix);
    assert !StartsWith(s, StdoutHeader);
    assert !StartsWith(s, CompletedPrefix);
    assert s != TimeoutReport by { assert s[6] == ' ' && TimeoutReport[6] == ':'; }
    assert StartsWith(s, SpawnPrefix);
    assert s[|SpawnPrefix|..|s| - 1] == reason;
  }

  lemma ReadReturnCode(code: int)
    ensures Read(ReturnCodePrefix + IntToString(code)) == ReturnCode(code)
  {
    var s := ReturnCodePrefix + IntToString(code);
    assert s[|ReturnCodePrefix|..] == IntToString(code);
    IntToStringRoundTrip(code);
  }

  lemma ReadCompletedSilently(code: int)
    ensures Read(CompletedPrefix + IntToString(code)) == CompletedSilently(code)
  {
    var s := CompletedPrefix + IntToString(code);
    assert s[0] == 'C';
    assert !StartsWith(s, ReturnCodePrefix);
    assert !StartsWith(s, StdoutHeader);
    assert s[|CompletedPrefix|..] == IntToString(code);
    IntToStringRoundTrip(code);
  }

  lemma ReadOutput(out: string)
    requires out != [] && !LooksLikeReport(out)
    ensures Read(out) == Output(out)
  {
    ErrorReportsShareLead();
    assert out != TimeoutReport;
    assert !StartsWith(out, SpawnPrefix);
  }

  lemma ErrorReportsShareLead()
    ensures StartsWith(TimeoutReport, ErrorLead)
    ensures StartsWith(SpawnPrefix, ErrorLead)
    ensures TimeoutReport[|ErrorLead|] == ':' && SpawnPrefix[|ErrorLead|] == ' '
  {
    assert TimeoutReport[..|ErrorLead|] == ErrorLead;
    assert SpawnPrefix[..|ErrorLead|] == ErrorLead;
    assert |ErrorLead| == 6 && TimeoutReport[6] == ':' && SpawnPrefix[6] == ' ';
  }

  /** Both streams come back apart when standard output holds no blank line
      followed by "STDERR:". */
  lemma ReadStreams(out: string, err: string)
    requires err != [] && !Contains(out, StderrHeader[..9])
    ensures Read(StdoutHeader + out + StderrHeader + err) == Streams(out, err)
  {
    var s := StdoutHeader + out + StderrHeader + err;
    var body := out + StderrHeader + err;
    assert s[0] == 'S';
    assert !StartsWith(s, ReturnCodePrefix);
    assert StartsWith(s, StdoutHeader);
    assert s[|StdoutHeader|..] == body;
    FirstHeaderAfterStdout(out, err);
    assert body[..|out|] == out;
    assert body[|out| + |StderrHeader|..] == err;
  }

  /** The first stderr header in the combined text is the one the formatter
      put there. */
  lemma FirstHeaderAfterStdout(out: string, err: string)
    requires !Contains(out, StderrHeader[..9])
    ensures IndexOf(out + StderrHeader + err, StderrHeader) == Some(|out|)
  {
    var body := out + StderrHeader + err;
    var h := StderrHeader;
    assert OccursAt(body, h, |out|) by {
      assert body[|out|..|out| + |h|] == h;
    }
    forall j | 0 <= j < |out| ensures !OccursAt(body, h, j) {
      if j + 9 <= |out| {
        if OccursAt(body, h, j) {
          assert out[j..j + 9] == body[j..j + 9] == h[..9];
          assert OccursAt(out, h[..9], j);
        }
      } else {
        var d := |out| - j;
        var m := if d == 1 then 2 else d;
        assert body[|out|] == '\n' && body[|out| + 1] == '\n';
        assert body[j + m] != h[m];
        assert j + |h| <= |body| ==> body[j..j + |h|][m] == body[j + m];
      }
    }
  }

  /** The timeout report is a fixed text that no interactive run and no
      spawn failure produces; a non-interactive run produces it only by
      printing exactly that text with nothing on standard error. */
  lemma TimeoutReportDistinct(code: int, out: string, err: string, reason: string)
    ensures RunCommand(true, Exited(code, out, err)) != RunCommand(false, TimedOut)
    ensures RunCommand(true, SpawnFailed(reason)) != RunCommand(false, TimedOut)
    ensures RunCommand(false, Exited(code, out, err)) == RunCommand(false, TimedOut)
            <==> err == [] && out == TimeoutReport
  {
    assert RunCommand(true, Exited(code, out, err))[0] == 'R';
    assert RunCommand(true, SpawnFailed(reason))[6] == ' ';
    var s := RunCommand(false, Exited(code, out, err));
    if err != [] {
      assert s[0] == 'S';
    } else if out == [] {
      assert s[0] == 'C';
    }
  }

  /** An interactive run's report and a spawn failure's never coincide. */
  lemma ReturnCodeDistinctFromSpawnError(code: int, out: string, err: string, reason: string)
    ensures RunCommand(true, Exited(code, out, err)) != RunCommand(true, SpawnFailed(reason))
  {
    assert RunCommand(true, Exited(code, out, err))[0] == 'R';
  }

  /** A command that prints the timeout report itself is indistinguishable
      from one that timed out. */
  lemma TimeoutReportCanBePrinted(code: int)
    ensures RunCommand(false, Exited(code, TimeoutReport, "")) == RunCommand(false, TimedOut)
  {
  }

  /** When standard output contains the stderr header, two different
      outcomes give the same text: the condition in `ReadStreams` is needed. */
  lemma StreamsBlurWithoutCondition(code: int)
    ensures RunCommand(false, Exited(code, "a" + StderrHeader + "b", "c"))
         == RunCommand(false, Exited(code, "a", "b" + StderrHeader + "c"))
  {
  }
}

=== FILE: settings.dfy ===
/** The settings the assistant starts with (`load_settings`): the defaults,
    overridden key by key by whatever the settings file holds. The file is
    abstracted as what reading and parsing it produced. */
module Settings {
  import opened Wrappers

  /** A parsed JSON value. Numbers with a fraction or exponent are reals. */
  datatype Json =
    | JNull
    | JBool(b: bool)
    | JInt(i: int)
    | JReal(r: real)
    | JString(s: string)
    | JArray(items: seq<Json>)
    | JObject(fields: map<string, Json>)

  /** `DEFAULT_SETTINGS` */
  const Defaults: map<string, Json> := map[
    "face_overlay" := JBool(false),
    "webcam_index" := JInt(0),
    "tts_rate" := JInt(150),
    "tts_volume" := JReal(1.0),
    "auto_write_ai_code_to" := JString("")
  ]

  /** What opening and parsing the settings file gave. */
  datatype SettingsFile =
    | Missing
      /** Opening, reading or parsing raised. */
    | Unreadable(reason: string)
    | Parsed(data: Json)

  /** The settings in effect, and what was written back to the file (only
      when it was missing). */
  datatype Loaded = Loaded(settings: map<string, Json>, written: Option<map<string, Json>>)

  /** One element of a sequence handed to `dict.update`, read as a key and
      a value: a two-element list with a string key, or a two-character
      string. Anything else makes `update` raise. */
  function Pair(item: Json): (kv: Option<(string, Json)>)
    ensures kv.Some? <==>
      (item.JArray? && |item.items| == 2 && item.items[0].JString?) || (item.JString? && |item.s| == 2)
    ensures kv.Some? && item.JArray? ==> item == JArray([JString(kv.value.0), kv.value.1])
    ensures kv.Some? && item.JString? ==>
      |kv.value.0| == 1 && kv.value.1.JString? && item == JString(kv.value.0 + kv.value.1.s)
  {
    match item
    case JArray(kv) =>
      if |kv| == 2 && kv[0].JString? then
        assert kv == [JString(kv[0].s), kv[1]];
        Some((kv[0].s, kv[1]))
      else None
    case JString(s) =>
      if |s| == 2 then
        assert s == [s[0]] + [s[1]];
        Some(([s[0]], JString([s[1]])))
      else None
    case _ => None
  }

  /** `dict.update` with a sequence of pairs: applied in order, so a later
      pair overrides an earlier one with the same key; `None` when some
      element is not a pair. */
  function Pairs(items: seq<Json>): (r: Option<map<string, Json>>)
    ensures r.Some? <==> forall i :: 0 <= i < |items| ==> Pair(items[i]).Some?
    ensures r.Some? ==> forall i :: 0 <= i < |items| ==> Pair(items[i]).value.0 in r.value
    ensures r.Some? ==> forall k :: k in r.value ==> exists i :: 0 <= i < |items| && Pair(items[i]).value.0 == k
  {
    if items == [] then Some(map[])
    else
      var last := items[|items| - 1];
      match Pairs(items[..|items| - 1])
      case None => None
      case Some(m) =>
        match Pair(last)
        case None => None
        case Some(kv) =>
          assert forall i :: 0 <= i < |items| - 1 ==> items[..|items| - 1][i] == items[i];
          Some(m[kv.0 := kv.1])
  }

  /** Among pairs with the same key, the last one is kept. */
  lemma {:induction false} PairsLastWins(items: seq<Json>, i: nat)
    requires Pairs(items).Some? && i < |items|
    requires forall j :: i < j < |items| ==> Pair(items[j]).value.0 != Pair(items[i]).value.0
    ensures Pairs(items).value[Pair(items[i]).value.0] == Pair(items[i]).value.1
    decreases |items|
  {
    var init := items[..|items| - 1];
    assert forall j :: 0 <= j < |items| - 1 ==> init[j] == items[j];
    if i < |items| - 1 {
      PairsLastWins(init, i);
    }
  }

  /** The keys and values `data` sets when it is merged in, or `None` when
      `merged.update(data)` raises. The empty string is an empty sequence of
      pairs: it is accepted and sets nothing. */
  function Overrides(data: Json): (r: Option<map<string, Json>>)
    ensures r.Some? <==>
      data.JObject? || data == JString("")
      || (data.JArray? && forall i :: 0 <= i < |data.items| ==> Pair(data.items[i]).Some?)
    ensures data.JObject? ==> r == Some(data.fields)
    ensures data == JString("") ==> r == Some(map[])
    ensures r.Some? && data.JArray? ==> forall k :: k in r.value <==>
      exists i :: 0 <= i < |data.items| && Pair(data.items[i]).Some? && Pair(data.items[i]).value.0 == k
  {
    match data
    case JObject(fields) => Some(fields)
    case JArray(items) => Pairs(items)
    case JString(s) => if s == [] then Some(map[]) else None
    case _ => None
  }

  /** `load_settings`. A missing file is created with the defaults, which
      are used; a file that cannot be read or parsed, or whose content
      `update` rejects, leaves the defaults; otherwise its keys override
      the defaults and its other keys are kept too. */
  function Load(file: SettingsFile): (r: Loaded)
    ensures r.settings.Keys == Defaults.Keys +
      if file.Parsed? && Overrides(file.data).Some? then Overrides(file.data).value.Keys else {}
    ensures file.Missing? <==> r.written.Some?
    ensures r.written.Some? ==> r.written.value == Defaults && r.settings == Defaults
    ensures forall k :: k in r.settings ==>
      if file.Parsed? && Overrides(file.data).Some? && k in Overrides(file.data).value
      then r.settings[k] == Overrides(file.data).value[k]
      else k in Defaults && r.settings[k] == Defaults[k]
  {
    match file
    case Missing => Loaded(Defaults, Some(Defaults))
    case Unreadable(_) => Loaded(Defaults, None)
    case Parsed(data) =>
      match Overrides(data)
      case None => Loaded(Defaults, None)
      case Some(m) => Loaded(Defaults + m, None)
  }

  /** A settings object holding every default key reads back as itself. */
  lemma LoadSavedObject(s: map<string, Json>)
    requires Defaults.Keys <= s.Keys
    ensures Load(Parsed(JObject(s))).settings == s
  {
    var r := Load(Parsed(JObject(s))).settings;
    assert r.Keys == s.Keys;
  }

  /** Saving the loaded settings and loading them again changes nothing. */
  lemma SaveThenLoad(file: SettingsFile)
    ensures Load(Parsed(JObject(Load(file).settings))).settings == Load(file).settings
  {
    LoadSavedObject(Load(file).settings);
  }

  /** A file holding something other than an object or a list of pairs
      (a number, say) gives the defaults, exactly as an unreadable file. */
  lemma ScalarFileGivesDefaults(data: Json, reason: string)
    requires !data.JObject? && !data.JArray?
    ensures Load(Parsed(data)).settings == Defaults == Load(Unreadable(reason)).settings
  {
  }

  /** A list of key/value pairs is accepted as well as an object: the
      pairs `[["tts_rate", 200], ["tts_rate", 180]]` set the rate to 180,
      the later pair winning. */
  lemma PairListOverrides()
    ensures Load(Parsed(JArray([JArray([JString("tts_rate"), JInt(200)]),
                                JArray([JString("tts_rate"), JInt(180)])]))).settings["tts_rate"] == JInt(180)
  {
    var items := [JArray([JString("tts_rate"), JInt(200)]), JArray([JString("tts_rate"), JInt(180)])];
    assert Pair(items[1]).value.0 == "tts_rate";
    PairsLastWins(items, 1);
  }

  /** One element that is not a pair makes the whole file fall back to the
      defaults, even if the elements before it were pairs. */
  lemma BadPairDiscardsAll(items: seq<Json>, i: nat)
    requires i < |items| && Pair(items[i]).None?
    ensures Load(Parsed(JArray(items))).settings == Defaults
  {
  }
}

=== FILE: text.dfy ===
/** The few pieces of Python's `str` that the assistant's command logic relies
    on: `lower`, `strip`, `split(maxsplit=...)`, `startswith`, the `in`
    substring test, slicing, and `str(int)` (with a parser as its inverse). */
module Text {
  import opened Wrappers

  /** `str.isspace` for one character: the characters `strip()` and
      `split()` without arguments treat as whitespace. */
  predicate IsSpace(c: char) {
    || ('\t' <= c <= '\r')
    || ('\U{1C}' <= c <= ' ')
    || c == '\U{85}' || c == '\U{A0}' || c == '\U{1680}'
    || ('\U{2000}' <= c <= '\U{200A}')
    || c == '\U{2028}' || c == '\U{2029}' || c == '\U{202F}' || c == '\U{205F}'
    || c == '\U{3000}'
  }

  const KelvinSign: char := '\U{212A}'

  /** `str.lower` on one character, for the Latin-1 range: `A`-`Z` and the
      accented capitals `À`-`Þ` (except `×`) move 32 code points down. Of
      the characters outside that range, the KELVIN SIGN is the one whose
      lower case is a single ASCII letter: it becomes `k`. */
  function LowerChar(c: char): char {
    if 'A' <= c <= 'Z' || ('\U{C0}' <= c <= '\U{DE}' && c != '\U{D7}') then
      (c as int + 32) as char
    else if c == KelvinSign then
      'k'
    else
      c
  }

  function Lower(s: string): (r: string)
    ensures |r| == |s|
    ensures forall i :: 0 <= i < |s| ==> r[i] == LowerChar(s[i])
  {
    seq(|s|, i requires 0 <= i < |s| => LowerChar(s[i]))
  }

  /** Lower-casing twice is lower-casing once. */
  lemma LowerIdempotent(s: string)
    ensures Lower(Lower(s)) == Lower(s)
  {
    assert forall i :: 0 <= i < |s| ==> LowerChar(LowerChar(s[i])) == LowerChar(s[i]);
  }

  /** Lower-casing works character by character. */
  lemma LowerAppend(a: string, b: string)
    ensures Lower(a + b) == Lower(a) + Lower(b)
  {
  }

  /** Lower-casing neither creates nor removes whitespace. */
  lemma LowerKeepsSpace(c: char)
    ensures IsSpace(LowerChar(c)) == IsSpace(c)
  {
  }

  /** `s.startswith(p)` */
  predicate StartsWith(s: string, p: string) {
    |p| <= |s| && s[..|p|] == p
  }

  /** `t` occurs in `s` starting at index `i`. */
  predicate OccursAt(s: string, t: string, i: int) {
    0 <= i && i + |t| <= |s| && s[i..i + |t|] == t
  }

  /** `t in s` */
  predicate Contains(s: string, t: string) {
    exists i | 0 <= i <= |s| - |t| :: OccursAt(s, t, i)
  }

  /** `s.find(t)`: the first index at which `t` occurs in `s`, if any. */
  function IndexOf(s: string, t: string): (r: Option<nat>)
    ensures r.Some? ==> OccursAt(s, t, r.value)
    ensures r.Some? ==> forall j :: 0 <= j < r.value ==> !OccursAt(s, t, j)
    ensures r.None? <==> !Contains(s, t)
    decreases |s|
  {
    if |t| > |s| then None
    else if s[..|t|] == t then Some(0)
    else
      ShiftOccurrence(s, t);
      match IndexOf(s[1..], t)
      case None => None
      case Some(k) => Some(k + 1)
  }

  /** An occurrence past the first index of `s` is an occurrence in `s[1..]`. */
  lemma ShiftOccurrence(s: string, t: string)
    requires s != [] && |t| <= |s|
    ensures forall j :: 1 <= j ==> (OccursAt(s, t, j) <==> OccursAt(s[1..], t, j - 1))
    ensures Contains(s, t) <==> OccursAt(s, t, 0) || Contains(s[1..], t)
  {
    forall j | 1 <= j
      ensures OccursAt(s, t, j) <==> OccursAt(s[1..], t, j - 1)
    {
      if j + |t| <= |s| {
        var here, there := s[j..j + |t|], s[1..][j - 1..j - 1 + |t|];
        forall k | 0 <= k < |t|
          ensures here[k] == there[k]
        {
          assert here[k] == s[j + k];
        }
        assert here == there;
      }
    }
    if Contains(s[1..], t) {
      var i :| 0 <= i <= |s| - 1 - |t| && OccursAt(s[1..], t, i);
      assert OccursAt(s, t, i + 1);
    }
  }

  /** A string that lacks one of the characters of `t` cannot contain `t`. */
  lemma MissingCharNotContained(s: string, t: string, c: char)
    requires c in t && c !in s
    ensures !Contains(s, t)
  {
    var k :| 0 <= k < |t| && t[k] == c;
    forall i | 0 <= i <= |s| - |t| ensures !OccursAt(s, t, i) {
      assert s[i..i + |t|][k] == s[i + k];
    }
  }

  /** The first index at or after `i` that does not hold whitespace (or
      `|s|` when there is none): where `lstrip` and `split` resume. */
  function SkipSpace(s: string, i: nat): (j: nat)
    requires i <= |s|
    ensures i <= j <= |s|
    ensures forall k :: i <= k < j ==> IsSpace(s[k])
    ensures j == |s| || !IsSpace(s[j])
    decreases |s| - i
  {
    if i < |s| && IsSpace(s[i]) then SkipSpace(s, i + 1) else i
  }

  /** The first index at or after `i` that holds whitespace (or `|s|`): the
      end of the word starting at `i`. */
  function WordEnd(s: string, i: nat): (j: nat)
    requires i <= |s|
    ensures i <= j <= |s|
    ensures forall k :: i <= k < j ==> !IsSpace(s[k])
    ensures j == |s| || IsSpace(s[j])
    decreases |s| - i
  {
    if i < |s| && !IsSpace(s[i]) then WordEnd(s, i + 1) else i
  }

  /** The index just past the last non-whitespace character of `s[lo..j]`,
      or `lo` when that slice is all whitespace: where `rstrip` cuts. */
  function TrailingStart(s: string, lo: nat, j: nat): (e: nat)
    requires lo <= j <= |s|
    ensures lo <= e <= j
    ensures forall k :: e <= k < j ==> IsSpace(s[k])
    ensures e == lo || !IsSpace(s[e - 1])
    decreases j
  {
    if lo < j && IsSpace(s[j - 1]) then TrailingStart(s, lo, j - 1) else j
  }

  /** `r` is the slice `s[i..i + |r|]`, and everything of `s` outside that
      slice is whitespace. */
  predicate SurroundedBySpace(s: string, r: string, i: int) {
    && 0 <= i <= |s| - |r|
    && r == s[i..i + |r|]
    && (forall j :: 0 <= j < i ==> IsSpace(s[j]))
    && (forall j :: i + |r| <= j < |s| ==> IsSpace(s[j]))
  }

  /** `s.strip()`: the slice of `s` left after removing the whitespace at
      both ends. */
  function Strip(s: string): (r: string)
    ensures exists i :: SurroundedBySpace(s, r, i)
    ensures r == [] || (!IsSpace(r[0]) && !IsSpace(r[|r| - 1]))
    ensures r == [] <==> forall j :: 0 <= j < |s| ==> IsSpace(s[j])
  {
    var i := SkipSpace(s, 0);
    var e := TrailingStart(s, i, |s|);
    assert SurroundedBySpace(s, s[i..e], i);
    s[i..e]
  }

  /** Strip leaves a string with no whitespace at either end unchanged. */
  lemma StripUnchanged(s: string)
    requires s != [] && !IsSpace(s[0]) && !IsSpace(s[|s| - 1])
    ensures Strip(s) == s
  {
  }

  /** A string that does not begin with whitespace keeps its first
      character when stripped. */
  lemma StripKeepsFirst(s: string)
    requires s != [] && !IsSpace(s[0])
    ensures Strip(s) != [] && Strip(s)[0] == s[0]
  {
    var r := Strip(s);
    var i :| SurroundedBySpace(s, r, i);
    assert i == 0;
  }

  /** Leading characters of a string survive stripping when they do not
      start with whitespace and some non-whitespace follows them. */
  lemma StripKeepsPrefix(s: string, p: string)
    requires StartsWith(s, p) && p != [] && !IsSpace(p[0])
    requires exists j :: |p| <= j < |s| && !IsSpace(s[j])
    ensures StartsWith(Strip(s), p)
  {
    var r := Strip(s);
    var i :| SurroundedBySpace(s, r, i);
    assert s[0] == p[0];
    assert i == 0;
    var j :| |p| <= j < |s| && !IsSpace(s[j]);
    assert j < |r|;
    assert r[..|p|] == s[..|p|];
  }

  /** `SkipSpace` stops at the first non-whitespace index. */
  lemma SkipSpaceAt(s: string, i: nat, j: nat)
    requires i <= j <= |s|
    requires forall k :: i <= k < j ==> IsSpace(s[k])
    requires j == |s| || !IsSpace(s[j])
    ensures SkipSpace(s, i) == j
  {
  }

  /** `WordEnd` stops at the first whitespace index. */
  lemma WordEndAt(s: string, i: nat, j: nat)
    requires i <= j <= |s|
    requires forall k :: i <= k < j ==> !IsSpace(s[k])
    requires j == |s| || IsSpace(s[j])
    ensures WordEnd(s, i) == j
  {
  }

  predicate NoSpace(w: string) {
    forall i :: 0 <= i < |w| ==> !IsSpace(w[i])
  }

  /** `s.endswith(p)` */
  predicate EndsWith(s: string, p: string) {
    |p| <= |s| && s[|s| - |p|..] == p
  }

  /** The words of `s[i..]`: its maximal runs of non-whitespace, in
      order. A reference definition read character by character: a
      non-whitespace character starts a new word unless the next one
      continues it. */
  function WordsFrom(s: string, i: nat): seq<string>
    requires i <= |s|
    decreases |s| - i
  {
    if i == |s| then []
    else
      var rest := WordsFrom(s, i + 1);
      if IsSpace(s[i]) then rest
      // `rest` is never empty here (see `WordsFromBlank`); the test keeps
      // `rest[0]` defined.
      else if i + 1 < |s| && !IsSpace(s[i + 1]) && rest != [] then [[s[i]] + rest[0]] + rest[1..]
      else [[s[i]]] + rest
  }

  /** The words of `s`. */
  function Words(s: string): seq<string> {
    WordsFrom(s, 0)
  }

  /** A text has no words exactly when it is all whitespace. */
  lemma {:induction false} WordsFromBlank(s: string, i: nat)
    requires i <= |s|
    ensures WordsFrom(s, i) == [] <==> forall j :: i <= j < |s| ==> IsSpace(s[j])
    decreases |s| - i
  {
    if i < |s| {
      WordsFromBlank(s, i + 1);
    }
  }

  /** Whitespace before a position adds no word. */
  lemma {:induction false} WordsSkipSpace(s: string, i: nat, j: nat)
    requires i <= j <= |s|
    requires forall k :: i <= k < j ==> IsSpace(s[k])
    ensures WordsFrom(s, i) == WordsFrom(s, j)
    decreases j - i
  {
    if i < j {
      WordsSkipSpace(s, i + 1, j);
    }
  }

  /** A run of non-whitespace ended by whitespace or the end of `s` is the
      first word of the text it starts. */
  lemma {:induction false} WordsFirstWord(s: string, b: nat, e: nat)
    requires b < e <= |s|
    requires forall k :: b <= k < e ==> !IsSpace(s[k])
    requires e == |s| || IsSpace(s[e])
    ensures WordsFrom(s, b) == [s[b..e]] + WordsFrom(s, e)
    decreases e - b
  {
    if e == b + 1 {
      assert s[b..e] == [s[b]];
    } else {
      WordsFirstWord(s, b + 1, e);
      assert s[b..e] == [s[b]] + s[b + 1..e];
    }
  }

  /** The words of a suffix are the words from where it starts. */
  lemma {:induction false} WordsOfSuffix(s: string, b: nat, k: nat)
    requires b + k <= |s|
    ensures WordsFrom(s[b..], k) == WordsFrom(s, b + k)
    decreases |s| - b - k
  {
    if b + k < |s| {
      WordsOfSuffix(s, b, k + 1);
      assert s[b..][k] == s[b + k];
      if b + k + 1 < |s| {
        assert s[b..][k + 1] == s[b + k + 1];
      }
    }
  }

  /** The parts `s[i..].split(maxsplit=n)` yields. */
  function SplitFrom(s: string, i: nat, maxsplit: nat): (parts: seq<string>)
    requires i <= |s|
    ensures |parts| <= maxsplit + 1
    ensures forall k :: 0 <= k < |parts| ==> parts[k] != [] && !IsSpace(parts[k][0])
    ensures forall k :: 0 <= k < |parts| - 1 ==> NoSpace(parts[k])
    ensures parts == [] <==> forall j :: i <= j < |s| ==> IsSpace(s[j])
    decreases |s| - i
  {
    var b := SkipSpace(s, i);
    if b == |s| then
      []
    else if maxsplit == 0 then
      [s[b..]]
    else
      var e := WordEnd(s, b);
      assert NoSpace(s[b..e]);
      [s[b..e]] + SplitFrom(s, e, maxsplit - 1)
  }

  /** The parts of a split from `i` (`parts`) against the words from `i`
      (`words`): all of the words when there are at most `maxsplit`;
      otherwise the first `maxsplit` words, then a suffix of the text, from
      the next word on, whose words are the remaining ones. */
  lemma {:induction false} SplitFromWords(s: string, i: nat, maxsplit: nat, parts: seq<string>, words: seq<string>)
    requires i <= |s| && parts == SplitFrom(s, i, maxsplit) && words == WordsFrom(s, i)
    ensures |words| <= maxsplit ==> parts == words
    ensures |words| > maxsplit ==>
      |parts| == maxsplit + 1 && parts[..maxsplit] == words[..maxsplit]
      && Words(parts[maxsplit]) == words[maxsplit..] && EndsWith(s, parts[maxsplit])
    decreases |s| - i, 1
  {
    if SkipSpace(s, i) < |s| && maxsplit > 0 {
      SplitFromWordsStep(s, i, maxsplit, parts, words);
    } else {
      SplitFromWordsLast(s, i, maxsplit, parts, words);
    }
  }

  /** The last part: nothing is left, or no split is. */
  lemma SplitFromWordsLast(s: string, i: nat, maxsplit: nat, parts: seq<string>, words: seq<string>)
    requires i <= |s| && parts == SplitFrom(s, i, maxsplit) && words == WordsFrom(s, i)
    requires SkipSpace(s, i) == |s| || maxsplit == 0
    ensures |words| <= maxsplit ==> parts == words
    ensures |words| > maxsplit ==>
      |parts| == maxsplit + 1 && parts[..maxsplit] == words[..maxsplit]
      && Words(parts[maxsplit]) == words[maxsplit..] && EndsWith(s, parts[maxsplit])
  {
    var b := SkipSpace(s, i);
    WordsSkipSpace(s, i, b);
    SplitFromStep(s, i, maxsplit);
    if b < |s| {
      WordsFirstWord(s, b, WordEnd(s, b));
      WordsOfSuffix(s, b, 0);
      assert parts == [s[b..]] && Words(parts[0]) == words == words[0..];
    }
  }

  /** One word split off, and the rest split once less. */
  lemma {:induction false} SplitFromWordsStep(s: string, i: nat, maxsplit: nat, parts: seq<string>, words: seq<string>)
    requires i <= |s| && parts == SplitFrom(s, i, maxsplit) && words == WordsFrom(s, i)
    requires SkipSpace(s, i) < |s| && maxsplit > 0
    ensures |words| <= maxsplit ==> parts == words
    ensures |words| > maxsplit ==>
      |parts| == maxsplit + 1 && parts[..maxsplit] == words[..maxsplit]
      && Words(parts[maxsplit]) == words[maxsplit..] && EndsWith(s, parts[maxsplit])
    decreases |s| - i, 0
  {
    var b := SkipSpace(s, i);
    var e := WordEnd(s, b);
    WordsSkipSpace(s, i, b);
    WordsFirstWord(s, b, e);
    SplitFromStep(s, i, maxsplit);
    var rest, restWords := SplitFrom(s, e, maxsplit - 1), WordsFrom(s, e);
    SplitFromWords(s, e, maxsplit - 1, rest, restWords);
    ConsMatchesWords(s, s[b..e], rest, restWords, maxsplit, parts, words);
  }

  /** How `SplitFrom` proceeds from `i`: nothing when only whitespace is
      left, the rest from the next word when no split is left, and
      otherwise that word followed by the parts after it. */
  lemma SplitFromStep(s: string, i: nat, maxsplit: nat)
    requires i <= |s|
    ensures SkipSpace(s, i) == |s| ==> SplitFrom(s, i, maxsplit) == []
    ensures SkipSpace(s, i) < |s| && maxsplit == 0 ==> SplitFrom(s, i, maxsplit) == [s[SkipSpace(s, i)..]]
    ensures SkipSpace(s, i) < |s| && maxsplit > 0 ==>
      SplitFrom(s, i, maxsplit) ==
        [s[SkipSpace(s, i)..WordEnd(s, SkipSpace(s, i))]] + SplitFrom(s, WordEnd(s, SkipSpace(s, i)), maxsplit - 1)
  {
  }

  /** A word in front of both the parts and the words keeps them in
      agreement, with one more split. */
  lemma ConsMatchesWords(s: string, w: string, parts: seq<string>, words: seq<string>, n: nat,
                         allParts: seq<string>, allWords: seq<string>)
    requires n > 0
    requires allParts == [w] + parts && allWords == [w] + words
    requires |words| <= n - 1 ==> parts == words
    requires |words| > n - 1 ==>
      |parts| == n - 1 + 1 && parts[..n - 1] == words[..n - 1]
      && Words(parts[n - 1]) == words[n - 1..] && EndsWith(s, parts[n - 1])
    ensures |allWords| <= n ==> allParts == allWords
    ensures |allWords| > n ==>
      |allParts| == n + 1 && allParts[..n] == allWords[..n]
      && Words(allParts[n]) == allWords[n..] && EndsWith(s, allParts[n])
  {
    if |words| > n - 1 {
      assert allParts[..n] == [w] + parts[..n - 1];
      assert allWords[..n] == [w] + words[..n - 1];
      assert allWords[n..] == words[n - 1..];
    }
  }

  /** `s.split(maxsplit=n)` as CPython computes it: at most `n` splits at runs
      of whitespace, leading whitespace skipped, and the remainder (with its
      trailing whitespace) kept as the last part. */
  function Split(s: string, maxsplit: nat): (parts: seq<string>)
    ensures |parts| <= maxsplit + 1
    ensures forall k :: 0 <= k < |parts| ==> parts[k] != [] && !IsSpace(parts[k][0])
    ensures forall k :: 0 <= k < |parts| - 1 ==> NoSpace(parts[k])
    ensures parts == [] <==> forall j :: 0 <= j < |s| ==> IsSpace(s[j])
  {
    SplitFrom(s, 0, maxsplit)
  }

  /** `Split` against the words of the text: with at most `maxsplit`
      words, the parts are the words; otherwise they are the first
      `maxsplit` words, then a suffix of the text whose words are the
      remaining ones. */
  lemma SplitWords(s: string, maxsplit: nat)
    ensures |Words(s)| <= maxsplit ==> Split(s, maxsplit) == Words(s)
    ensures |Words(s)| > maxsplit ==>
      |Split(s, maxsplit)| == maxsplit + 1 && Split(s, maxsplit)[..maxsplit] == Words(s)[..maxsplit]
      && Words(Split(s, maxsplit)[maxsplit]) == Words(s)[maxsplit..] && EndsWith(s, Split(s, maxsplit)[maxsplit])
  {
    SplitFromWords(s, 0, maxsplit, Split(s, maxsplit), Words(s));
  }

  /** A single word splits into itself. */
  lemma SplitOneWord(w: string)
    requires w != [] && NoSpace(w)
    ensures Split(w, 2) == [w]
  {
    SkipSpaceAt(w, 0, 0);
    WordEndAt(w, 0, |w|);
    assert w[0..|w|] == w;
  }

  /** With at most two splits, two words and the rest of the text come
      apart as three parts: the rest is kept whole. */
  lemma SplitTwoWordsAndRest(w1: string, w2: string, rest: string)
    requires w1 != [] && NoSpace(w1) && w2 != [] && NoSpace(w2)
    requires rest != [] && !IsSpace(rest[0])
    ensures Split(w1 + " " + w2 + " " + rest, 2) == [w1, w2, rest]
  {
    var s := w1 + " " + w2 + " " + rest;
    var e1 := |w1|;
    var e2 := |w1| + 1 + |w2|;
    assert s[e1] == ' ' && s[e2] == ' ' && s[e2 + 1] == rest[0];
    assert forall k :: 0 <= k < e1 ==> s[k] == w1[k];
    assert forall k :: e1 + 1 <= k < e2 ==> s[k] == w2[k - e1 - 1];
    SkipSpaceAt(s, 0, 0);
    WordEndAt(s, 0, e1);
    SkipSpaceAt(s, e1, e1 + 1);
    WordEndAt(s, e1 + 1, e2);
    SkipSpaceAt(s, e2, e2 + 1);
    assert s[0..e1] == w1;
    assert s[e1 + 1..e2] == w2;
    assert s[e2 + 1..] == rest;
    assert SplitFrom(s, e2, 0) == [rest];
    assert SplitFrom(s, e1, 1) == [w2, rest];
  }

  /** `s[k:]` with Python's tolerance of an index past the end. */
  function Drop(s: string, k: nat): (r: string)
    ensures k <= |s| ==> |r| + k == |s| && s == s[..k] + r
    ensures k > |s| ==> r == []
  {
    if k <= |s| then s[k..] else []
  }

  /** `s[:k]` with Python's tolerance of an index past the end. */
  function Take(s: string, k: nat): (r: string)
    ensures |r| == if |s| < k then |s| else k
    ensures StartsWith(s, r)
  {
    if k <= |s| then s[..k] else s
  }

  predicate IsDigit(c: char) {
    '0' <= c <= '9'
  }

  function DigitChar(d: nat): (c: char)
    requires d < 10
    ensures IsDigit(c) && c as int - '0' as int == d
  {
    ('0' as int + d) as char
  }

  /** `str(n)` for a non-negative integer: its decimal digits, most
      significant first, without leading zeros. */
  function NatToString(n: nat): (r: string)
    ensures r != [] && forall i :: 0 <= i < |r| ==> IsDigit(r[i])
    ensures |r| > 1 ==> r[0] != '0'
    decreases n
  {
    if n < 10 then [DigitChar(n)] else NatToString(n / 10) + [DigitChar(n % 10)]
  }

  /** `str(n)` for any integer: a minus sign before the digits of a negative. */
  function IntToString(n: int): (r: string)
    ensures r != []
    ensures n < 0 <==> r[0] == '-'
  {
    if n < 0 then "-" + NatToString(-n) else NatToString(n)
  }

  /** The value of a string of decimal digits. */
  function DigitsValue(s: string): nat
    requires forall i :: 0 <= i < |s| ==> IsDigit(s[i])
  {
    if s == [] then 0
    else
      assert IsDigit(s[|s| - 1]);
      DigitsValue(s[..|s| - 1]) * 10 + (s[|s| - 1] as int - '0' as int)
  }

  predicate AllDigits(s: string) {
    s != [] && forall i :: 0 <= i < |s| ==> IsDigit(s[i])
  }

  /** `int(s)` restricted to an optional minus sign followed by digits; None
      for anything else. */
  function ParseInt(s: string): Option<int> {
    if s != [] && s[0] == '-' && AllDigits(s[1..]) then Some(0 - DigitsValue(s[1..]))
    else if AllDigits(s) then Some(DigitsValue(s))
    else None
  }

  lemma {:induction false} NatToStringRoundTrip(n: nat)
    ensures DigitsValue(NatToString(n)) == n
    decreases n
  {
    if n >= 10 {
      var p := NatToString(n / 10);
      var s := p + [DigitChar(n % 10)];
      assert s[..|s| - 1] == p;
      NatToStringRoundTrip(n / 10);
    }
  }

  /** Parsing the decimal text of an integer gives the integer back. */
  lemma IntToStringRoundTrip(n: int)
    ensures ParseInt(IntToString(n)) == Some(n)
  {
    if n < 0 {
      var s := IntToString(n);
      assert s[1..] == NatToString(-n);
      NatToStringRoundTrip(-n);
    } else {
      NatToStringRoundTrip(n);
    }
  }
}

=== FILE: wrappers.dfy ===
/** The optional-value datatype used throughout the model, standing for
    Python's `None`-or-value results (a cancelled dialog, a failed parse). */
module Wrappers {

  datatype Option<+T> = None | Some(value: T)
}
